=== FILE: README.md ===
# Classified listings: category tree, search filters, facets and field projection

This project models the search layer of a classified-listings backend in
Dafny. Three parts are modelled:

- **The category tree.** Categories are keyed by a short code of at
  most three characters, and each has an optional parent. Each category defines attributes, such as
  "mileage" (a number input) or "colour" (a select box). A category inherits
  the attributes of all its ancestors.
- **The search endpoint.** It reads a request's multi-valued query
  parameters:
  - `cat`, the category to search in;
  - `ex_cats`, categories to exclude;
  - `text`, full-text search words;
  - any other parameter, interpreted against the attribute schema of `cat`.

  From these it builds one composite filter over posts. Beside the matching
  posts it returns a facet count for every candidate category.
- **Field projection.** A `fields` parameter selects which serializer fields
  a response carries.

The model describes all of this with immutable datatypes and pure functions:

- the category table is a map from code to record;
- an ORM filter is a predicate datatype with an evaluator over one post;
- a post's JSON attribute records are maps from string to JSON value;
- a query dictionary is a sequence of keys with their value lists.

| file | module | what it holds |
|---|---|---|
| `wrappers.dfy` | `Wrappers` | `Option`, `Result`, duplicate-freedom |
| `strings.dfy` | `Strings` | ASCII `lower()`, substring test, the code-point order of strings, space join, `int()`/`str()` |
| `categories.dfy` | `Categories` | the category table, acyclicity, parent chains, `get_all_sub_categories`, `get_all_attributes`, `SET_NULL` deletion |
| `posts.dfy` | `Posts` | JSON values and the jsonb order `__gte`/`__lte` compare by, posts and their attribute records, `upload_post_image` |
| `query.dfy` | `Query` | the filter algebra (`Q`, querysets), `QueryDict` `getlist`/`get`/`pop`, the errors a search raises |
| `resolver.dfy` | `Resolver` | `generate_qs` and the per-parameter parsers, with a direct description of what a search keeps |
| `facets.dfy` | `Facets` | the counting fold of `SearchView.list`, the candidate categories, the whole endpoint |
| `fields.dfy` | `Fields` | `DynamicFieldsModelSerializer` field dropping and the `fields`/`ex_fields` parameters |

The source's parent links carry no cycle guard. Both tree recursions would
therefore diverge on a cycle. The model requires the table to be acyclic:
from every category, following parent links reaches a root within some
number of steps. Recursion up the tree decreases the distance to the root.
Recursion down the tree decreases the set of categories that are not on the
current parent chain.

Behaviour the model follows from the code:

- **Raising facet loop.** The facet loop is sometimes described as silently
  skipping posts whose category is not a candidate. The code at
  posts/views.py:74-75 indexes the dictionary directly and raises `KeyError`.
  The model follows the code, so such a post gives `MissingFacet`.
- **Textarea attributes.** A parameter whose first matching attribute is a
  `textarea` makes `parsers.get` return the string `'none'`. Calling that
  string raises, so the model returns `WidgetNotCallable`.
- **Checkbox and text inputs.** The checkbox/text input branch calls
  `reduce` without an iterable. That raises for every value list, so the
  model returns `MalformedFilter`.
- **Pagination parameters in the attribute loop.** `limit`, `offset`,
  `fields` and `ex_fields` are never removed before the attribute loop of
  `generate_qs`. Like any other parameter, they are matched against the
  attribute schema.

## Model

| member | source | states |
|---|---|---|
| `Categories.Chain` | posts/models.py:36 | the parent chain starts at the category itself |
| `Categories.CycleNotAcyclic` | posts/models.py:38-50 | a category that is its own ancestor through any number of parent links makes the table cyclic: no amount of fuel reaches a root from it, so the source's recursions would not end |
| `Categories.SelfParentNotAcyclic` | posts/models.py:38-50 | in particular a category recorded as its own parent makes the table cyclic |
| `Categories.TwoCycleNotAcyclic` | posts/models.py:38-50 | two categories recorded as each other's parent make the table cyclic |
| `Categories.Children` | posts/models.py:42 | the direct children are exactly the categories whose parent is `c`, each once |
| `Categories.SubCategories` | posts/models.py:38-44 | with `include_self` the first element is the category itself |
| `Categories.SubCategoriesSound` | posts/models.py:42-43 | every returned category has `c` on its parent chain, and `c` itself is returned only when `include_self` is set |
| `Categories.SubCategoriesComplete` | posts/models.py:42-43 | every category whose parent chain reaches `c` is returned, and without `include_self` every one other than `c` is |
| `Categories.SubCategoriesNoDup` | posts/models.py:42-43 | on an acyclic table no category is returned twice |
| `Categories.SubCategoriesExact` | posts/models.py:38-44 | the result is duplicate-free and contains a category if and only if it lies in `c`'s subtree |
| `Categories.InSubtree` | posts/models.py:38-44 | membership of one category in the subtree, in both directions |
| `Categories.AllAttributes` | posts/models.py:46-50 | own attributes come first, and a root category has exactly its own attributes |
| `Categories.AllAttributesAlongChain` | posts/models.py:46-50 | inherited attributes are the own attributes of every ancestor, nearest first; the length is the sum of their own-attribute counts |
| `Categories.AllAttributesMembers` | posts/models.py:46-50 | an attribute is inherited exactly when some category on the parent chain defines it |
| `Categories.DeleteCategory` | posts/models.py:36 | deleting a category nulls its children's parent links, changes nothing else, and keeps the table well-formed and acyclic |
| `Posts.UploadPath` | posts/models.py:26-27 | the path starts with `post_` and ends with the uploaded file name |
| `Posts.ParseUploadPathRoundTrip` | posts/models.py:26-27 | post id and file name can be read back from the path |
| `Posts.UploadPathInjective` | posts/models.py:26-27 | different posts or file names never share a path |
| `Strings.LowerMeaning` | posts/views.py:142 | after lower-casing no capital letter remains, each capital becomes its own small letter, and every other character stays in place |
| `Strings.LowerIdempotent` | posts/views.py:142 | lower-casing twice is lower-casing once |
| `Strings.JoinShape` | posts/views.py:102 | the joined search text starts with the first word, ends with the last, and is one character longer than the words per gap between them |
| `Strings.StrLeTotal` | posts/views.py:172-174 | any two strings are ordered one way or the other |
| `Strings.StrLeAntisymmetric` | posts/views.py:172-174 | two strings ordered both ways are equal |
| `Strings.StrLeTransitive` | posts/views.py:172-174 | the string order is transitive |
| `Strings.SplitJoin` | posts/views.py:102 | joining space-free search words with single spaces loses nothing: splitting gives them back |
| `Strings.ParseInt` | posts/views.py:168 | `int()` succeeds exactly on an optional sign followed by digits |
| `Strings.ParseIntToString` | posts/views.py:168 | `int(str(i)) == i` for every integer |
| `Query.QOr` | posts/views.py:159 | an empty `Q()` operand on either side is dropped, and otherwise the combination holds exactly when one side holds |
| `Query.Filter` | posts/views.py:58 | a queryset holds exactly the stored posts satisfying its filter |
| `Query.FilterAnd` | posts/views.py:110-115 | combining a queryset with `&`, `filter` or `exclude` is filtering the queryset once more, in the same order |
| `Query.GetList` | posts/views.py:157 | `getlist` finds a key's values exactly when the key is present |
| `Query.GetLast` | posts/views.py:60-62 | `get('cat')` finds a value exactly when `cat` is present, and that value is the last one given |
| `Query.Pop` | posts/views.py:95-99 | `pop` returns the key's values and leaves every other key, and only those |
| `Query.GetListWithout` | posts/views.py:95-99 | popping one key leaves the values of every other key unchanged |
| `Resolver.EmptyNameMatchesAll` | posts/views.py:142 | an attribute with an empty name matches every parameter |
| `Resolver.FirstMatch` | posts/views.py:141-147 | finds nothing exactly when no lower-cased attribute name occurs in the lower-cased parameter; otherwise returns the first attribute that does |
| `Resolver.SelectFilter` | posts/views.py:155-160 | the select filter is the empty `Q()` exactly when no value is given |
| `Resolver.SelectFilterMeaning` | posts/views.py:155-160 | a post passes exactly when some attribute record stores one of the values under the parameter's own name |
| `Resolver.CoerceInt` | posts/views.py:166-170 | the bound is an integer, or else the raw string unchanged |
| `Resolver.CoerceIntMeaning` | posts/views.py:166-170 | a value is compared as a number exactly when `int()` accepts it, and `str(i)` is compared as `i` |
| `Resolver.RangeFilter` | posts/views.py:162-175 | the number/date parser fails only on an empty value list |
| `Posts.JsonLeTotal` | posts/views.py:172-174 | against a number or string bound every stored value is on one side or the other, and on both sides exactly when it equals the bound |
| `Posts.LaterIsoDatePasses` | posts/views.py:164-174 | a post dated `2020-06-01` passes `min_date=2020-01-01` and fails `max_date=2020-01-01` |
| `Posts.EmptyArrayBelowBounds` | posts/views.py:172-174 | a post whose record stores an empty array under `k` fails `min_k` and passes `max_k` for every number or string bound, as an empty top-level jsonb array sorts below every other value |
| `Posts.BothBoundsMeanEqual` | posts/views.py:159-174 | on a post with one attribute record, `min_k=v&max_k=v` keeps exactly what the exact lookup `k=v` keeps |
| `Resolver.InputFilter` | posts/views.py:162-183 | the input parser fails exactly on a checkbox/text input or a number/date input with no value, and an input of no declared type matches every post |
| `Resolver.ParamFilter` | posts/views.py:140-153 | a parameter no attribute matches gives the match-all filter, and the parser fails exactly when the first matching attribute rejects the values |
| `Resolver.ParamFilterMeaning` | posts/views.py:140-183 | a parameter fails exactly when its first matching attribute is a textarea, a checkbox/text input or an empty range; otherwise its filter keeps exactly the posts the matched attribute describes, with `>=` when the parameter contains `min`, and matches every post when nothing matches |
| `Resolver.ApplyParams` | posts/views.py:111-112 | with no parameters the queryset is unchanged, and a successful fold only ever narrows it |
| `Resolver.ApplyParamsMeaning` | posts/views.py:111-112 | the AND-fold fails exactly when some parameter fails, and otherwise keeps exactly the posts every parameter accepts |
| `Resolver.CategoryFilter` | posts/views.py:107-112 | an unknown code raises 404; a known code with no further parameters never fails, and otherwise the branch fails exactly when the parameter fold over the category's attributes does |
| `Resolver.CategoryFilterMeaning` | posts/views.py:107-112 | the `cat` branch raises 404 on an unknown code; otherwise it keeps exactly the posts in the subtree that satisfy every remaining parameter |
| `Resolver.TextFilter` | posts/views.py:99-105 | the text filter constrains something exactly when the first `text` value is non-empty |
| `Resolver.TextFilterMeaning` | posts/views.py:99-105 | full-text search applies exactly when the first `text` value is non-empty, on all values joined by spaces |
| `Resolver.Exclude` | posts/views.py:114-115 | without `ex_cats` the queryset is unchanged; with it no post of a listed category is kept |
| `Resolver.ExcludeMeaning` | posts/views.py:114-115 | with `ex_cats` no kept post has a listed category, whatever else the filter says |
| `Resolver.PopsLeaveUnreserved` | posts/views.py:95-99 | after the three pops, exactly the non-reserved parameters remain and `ex_cats` and `text` are read unchanged |
| `Resolver.GenerateQs` | posts/views.py:93-118 | without `cat` the filter is always built, and no post of a category in `ex_cats` ever passes it |
| `Resolver.GenerateQsMeaning` | posts/views.py:93-118 | `generate_qs` fails exactly on an unknown `cat` or a raising parameter; otherwise a post passes exactly when it matches the text, lies in the first `cat` value's subtree and satisfies every non-reserved parameter (only when `cat` is given), and is not in `ex_cats` |
| `Facets.CountIn` | posts/views.py:74-75 | a category's count never exceeds the number of posts |
| `Facets.CountInZero` | posts/views.py:74-75 | a category's count is zero exactly when none of the posts is filed under it |
| `Facets.CountTotalIsSize` | posts/views.py:64-75 | with distinct candidates covering every post's category, the counts sum to the number of posts |
| `Facets.ZeroCounts` | posts/views.py:64-72 | every candidate gets an entry with its code and name and a zero count, and there are no other entries |
| `Facets.CountFacets` | posts/views.py:64-75 | the fold succeeds exactly when every post's category is a candidate, and otherwise raises on the first post that is not; on success each count is the number of posts in that category and the counts sum to the number of posts |
| `Facets.FacetCandidates` | posts/views.py:59-62 | candidates are every category without `cat`, otherwise exactly the subtree of the first `cat` value; an unknown code fails |
| `Facets.FacetCandidatesAsWritten` | posts/views.py:59-62 | the same, computed from the last `cat` value as `query_params.get` returns it |
| `Facets.CandidatesFor` | posts/views.py:59-62 | without a code every category is a candidate, and with one exactly its subtree, each once; an unknown code fails |
| `Facets.CandidatesForInjective` | posts/views.py:59-62 | different codes never give the same candidates |
| `Facets.CandidatesAgreeIffSameCat` | posts/views.py:60-62 | reading `cat` with `get` and with `pop(...)[0]` gives the same candidates exactly when the last and first `cat` values are the same code, so always when `cat` is given once |
| `Facets.FacetCandidatesCoverResults` | posts/views.py:59-75 | with candidates from the first `cat` value, every post the filter keeps has a facet entry |
| `Facets.Search` | posts/views.py:55-82 | the endpoint fails exactly on an unknown `cat` or a raising parameter, as `generate_qs` does; results are exactly the matching posts, each facet counts its category's results, and the facets sum to the number of results; the facet keys are every category without `cat` and exactly the first value's subtree with it, zero counts included |
| `Facets.SearchAsWritten` | posts/views.py:55-82 | the endpoint as written also fails when the last `cat` value is unknown or a matching post lies outside its subtree; on success the facet keys are that last value's subtree |
| `Facets.RepeatedCatLosesFacet` | posts/views.py:60-62 | `?cat=VEH&cat=CAR` keeps a bike filed under a child of VEH, but the bike has no facet entry in the code as written |
| `Fields.Project` | posts/utils.py:25-35 | with no requested names every field is kept; otherwise exactly the existing fields that were requested survive, and nothing new is added |
| `Fields.ProjectPreservesOrder` | posts/utils.py:34-35 | surviving fields keep their original relative order |
| `Fields.ProjectIdempotent` | posts/utils.py:31-35 | projecting twice with the same names is projecting once |
| `Fields.DropUnrequested` | posts/utils.py:30-35 | popping each field of `existing - allowed`, in whatever order the set is visited, leaves exactly the projection |
| `Fields.RequestedFields` | posts/utils.py:14 | `getlist('fields', None)` gives no names when the parameter is absent, and the given names otherwise |
| `Fields.ServedFields` | posts/utils.py:14-35 | without a `fields` parameter the response carries every field, and it never carries one the serializer does not declare |
| `Fields.ExFieldsIgnored` | posts/utils.py:6-26 | removing `ex_fields` from the request never changes the served fields |

## Left out

- Settings, storage configuration, URL routing and admin registration are not modelled. They hold configuration, not logic.
- Serializers, authentication and the post/photo creation views are not modelled. They are framework glue.
- The photo upload handler is not modelled. Only the path it stores files under is.
- Pagination is not modelled. `Facets.Search` returns every result rather than one page. The unpaginated branch of `SearchView.list` refers to an undefined name and is never reached under the configured pagination class.
- The `print` calls are left out. Console output has no effect on results.
- Postgres full-text search is a parameter, `search(post, text)`, and is left uninterpreted.
- ORM laziness, transactions and cascades are not modelled; querysets are predicates evaluated over an in-memory post sequence. The one cascade that is modelled is `SET_NULL` on a category's parent link. The `CASCADE` from a deleted category to its posts and attribute definitions is not.
- Facets.Search: results are a set-like filter of the post table in table order. The database join over several attribute records can return one post more than once, and that duplication is not modelled.
- Posts.JsonLe: `__gte`/`__lte` follow the jsonb sort order. Strings compare by code point, whereas Postgres compares them under the database collation; the two agree only on fixed-width digit strings such as ISO dates (under a locale collation such as en_US, `"apple"` sorts before `"Banana"`, but the model orders them the other way). Two non-empty arrays are never taken to be ordered.
- Strings.Lower, Strings.LowerMeaning: only ASCII letters are lower-cased, not the full Unicode case mapping of `str.lower()`.
- Resolver.SelectFilterMeaning: a parameter name, and the lower-cased attribute name a range bound uses, is read as one literal key of the JSON document. Django's JSON field splits `attributes__data__<name>` on `__` instead: a trailing lookup name such as `in` or `contains` becomes a lookup, the other parts a nested key path, and an all-digit part an array index. A name containing `__`, equal to a lookup name, or made of digits therefore selects different posts in the ORM than in the model; nested JSON objects are not modelled. `Resolver.ParamFilterMeaning`, `Resolver.ApplyParamsMeaning`, `Resolver.CategoryFilterMeaning` and `Resolver.GenerateQsMeaning` inherit this reading.
- Strings.ParseInt: `int()` is an optional sign followed by ASCII digits. Whitespace, underscores and non-ASCII digits are not accepted as Python accepts them.
- JSON attribute values cover null, booleans, integers, strings and arrays. Floating-point numbers and nested objects are not modelled.
- Category ordering by name is taken as given: the table's `order` field is the order `Category.objects.all()` lists rows in.
- Widget and input-type strings outside the declared choices cannot be represented.

## Findings

| source | as written | input that shows it | evidently intended | confidence | as-written member | corrected member |
|---|---|---|---|---|---|---|
| posts/views.py:60-62 | the facet candidates are the subtree of `query_params.get('cat')`, the LAST `cat` value, while `generate_qs` filters on `pop('cat')[0]`, the FIRST | `?cat=VEH&cat=CAR` with a post in BIK, a child of VEH: the post passes the filter, BIK has no entry, and line 75 raises `KeyError` (`Facets.RepeatedCatLosesFacet`) | the candidates come from the same first `cat` value the filter uses, so every result has an entry (`Facets.FacetCandidatesCoverResults`) | medium, not executed | `Facets.FacetCandidatesAsWritten` | `Facets.FacetCandidates` |

=== FILE: categories.dfy ===
/** The category taxonomy of `posts/models.py`: categories keyed by a short
    code of at most three characters, each with an optional parent code and
    its own attribute definitions, and the two recursive queries over the tree.

    The source walks parent links with no cycle guard, so both queries diverge
    on a cyclic parent relation.  Here the catalogue is required to be
    acyclic: from every category, following parent links reaches a root. */
module Categories {
  import opened Wrappers

  /** A category's primary key (`short_name`, at most three characters). */
  type Code = string

  const MaxCodeLength := 3
  const MaxNameLength := 128

  /** `CategoryAttribute.INPUT_WIDGETS`. */
  datatype Widget = Select | Textarea | Input

  /** `CategoryAttribute.INPUT_TYPES`; the column is nullable. */
  datatype InputType = Text | Number | Checkbox | Date

  /** One attribute definition.  Its owning category is the one whose
      `attributes` list holds it. */
  datatype CategoryAttribute = CategoryAttribute(
    name: string,
    unit: Option<string>,
    isMandatory: bool,
    widget: Widget,
    inputType: Option<InputType>,
    inputValues: Option<seq<string>>)

  datatype Category = Category(
    shortName: Code,
    name: string,
    parent: Option<Code>,
    attributes: seq<CategoryAttribute>)

  /** The category table: records by primary key, and `order`, the order in
      which the table lists its rows (the model's ordering, by name). */
  datatype Catalogue = Catalogue(cats: map<Code, Category>, order: seq<Code>)

  // ---------------------------------------------------------------------------
  // Well-formedness and acyclicity
  // ---------------------------------------------------------------------------

  /** Number of parent links from `c` to its root, if a root is reached within
      `fuel` links. */
  function Depth(cats: map<Code, Category>, c: Code, fuel: nat): Option<nat>
    decreases fuel
  {
    if c !in cats then None
    else match cats[c].parent
      case None => Some(0)
      case Some(p) =>
        if fuel == 0 then None
        else match Depth(cats, p, fuel - 1)
          case None => None
          case Some(d) => Some(d + 1)
  }

  /** Following parent links from any category eventually reaches a root. */
  ghost predicate Acyclic(cats: map<Code, Category>) {
    forall c :: c in cats ==> exists n :: Depth(cats, c, n).Some?
  }

  ghost predicate WellFormed(db: Catalogue) {
    && (forall c :: c in db.cats ==> db.cats[c].shortName == c)
    && (forall c :: c in db.cats ==> |c| <= MaxCodeLength && |db.cats[c].name| <= MaxNameLength)
    && (forall c :: c in db.cats && db.cats[c].parent.Some? ==> db.cats[c].parent.value in db.cats)
    && NoDup(db.order)
    && (forall c :: c in db.order <==> c in db.cats)
    && Acyclic(db.cats)
  }

  predicate IsChild(db: Catalogue, k: Code, c: Code) {
    k in db.cats && db.cats[k].parent == Some(c)
  }

  /** The category reached from `c` by following `k` parent links, if every
      link on the way is recorded. */
  function Ancestor(cats: map<Code, Category>, c: Code, k: nat): Option<Code>
    decreases k
  {
    if c !in cats then None
    else if k == 0 then Some(c)
    else match cats[c].parent
      case None => None
      case Some(p) => Ancestor(cats, p, k - 1)
  }

  /** Climbing `j` links from a category with a known depth spends `j` of the
      fuel and `j` of the depth. */
  lemma {:induction false} DepthOfAncestor(cats: map<Code, Category>, c: Code, n: nat, j: nat)
    requires Depth(cats, c, n).Some? && Ancestor(cats, c, j).Some?
    ensures j <= n && j <= Depth(cats, c, n).value
    ensures Depth(cats, Ancestor(cats, c, j).value, n - j) == Some(Depth(cats, c, n).value - j)
    decreases j
  {
    if j > 0 {
      var p := cats[c].parent.value;
      DepthOfAncestor(cats, p, n - 1, j - 1);
    }
  }

  /** A category that is its own ancestor `k >= 1` links up never reaches a
      root, however much fuel is given: the source's recursion on it would
      not end. */
  lemma {:induction false} CycleNoDepth(cats: map<Code, Category>, c: Code, k: nat, n: nat)
    requires k >= 1 && Ancestor(cats, c, k) == Some(c)
    ensures Depth(cats, c, n).None?
    decreases n
  {
    if Depth(cats, c, n).Some? {
      DepthOfAncestor(cats, c, n, k);
      CycleNoDepth(cats, c, k, n - k);
      assert false;
    }
  }

  /** So a table with a cycle of parent links, of any length, is not acyclic. */
  lemma CycleNotAcyclic(cats: map<Code, Category>, c: Code, k: nat)
    requires k >= 1 && Ancestor(cats, c, k) == Some(c)
    ensures !Acyclic(cats)
  {
    forall n: nat ensures Depth(cats, c, n).None? {
      CycleNoDepth(cats, c, k, n);
    }
  }

  /** In particular a category recorded as its own parent. */
  lemma SelfParentNotAcyclic(cats: map<Code, Category>, c: Code)
    requires c in cats && cats[c].parent == Some(c)
    ensures !Acyclic(cats)
  {
    assert Ancestor(cats, c, 1) == Some(c);
    CycleNotAcyclic(cats, c, 1);
  }

  /** Two categories recorded as each other's parent form such a cycle. */
  lemma TwoCycleNotAcyclic(cats: map<Code, Category>, a: Code, b: Code)
    requires a in cats && b in cats && cats[a].parent == Some(b) && cats[b].parent == Some(a)
    ensures !Acyclic(cats)
  {
    assert Ancestor(cats, a, 2) == Some(a);
    CycleNotAcyclic(cats, a, 2);
  }

  /** More fuel never changes a depth already found. */
  lemma {:induction false} DepthMonotone(cats: map<Code, Category>, c: Code, n: nat, m: nat)
    requires Depth(cats, c, n).Some? && n <= m
    ensures Depth(cats, c, m) == Depth(cats, c, n)
    decreases n
  {
    match cats[c].parent
    case None =>
    case Some(p) =>
      DepthMonotone(cats, p, n - 1, m - 1);
  }

  /** Enough fuel to reach the root from `c`. */
  ghost function Fuel(db: Catalogue, c: Code): (n: nat)
    requires WellFormed(db) && c in db.cats
    ensures Depth(db.cats, c, n).Some?
  {
    var n :| Depth(db.cats, c, n).Some?; n
  }

  /** The number of parent links from `c` up to its root. */
  ghost function Level(db: Catalogue, c: Code): nat
    requires WellFormed(db) && c in db.cats
  {
    Depth(db.cats, c, Fuel(db, c)).value
  }

  /** A category sits exactly one level below its parent. */
  lemma LevelOfChild(db: Catalogue, k: Code, c: Code)
    requires WellFormed(db) && IsChild(db, k, c)
    ensures c in db.cats && Level(db, k) == Level(db, c) + 1
  {
    var nk := Fuel(db, k);
    var nc := Fuel(db, c);
    assert nk > 0;
    assert Depth(db.cats, c, nk - 1).Some?;
    var m := nk - 1 + nc;
    DepthMonotone(db.cats, c, nk - 1, m);
    DepthMonotone(db.cats, c, nc, m);
  }

  // ---------------------------------------------------------------------------
  // The parent chain
  // ---------------------------------------------------------------------------

  /** `c`, its parent, its grandparent, ... up to the root. */
  function Chain(db: Catalogue, c: Code): (r: seq<Code>)
    requires WellFormed(db) && c in db.cats
    ensures |r| > 0 && r[0] == c
    decreases Level(db, c)
  {
    match db.cats[c].parent
    case None => [c]
    case Some(p) =>
      LevelOfChild(db, c, p);
      [c] + Chain(db, p)
  }

  /** The i-th link of a chain is a category exactly i levels up. */
  lemma {:induction false} ChainLevels(db: Catalogue, e: Code)
    requires WellFormed(db) && e in db.cats
    ensures |Chain(db, e)| == Level(db, e) + 1
    ensures forall i :: 0 <= i < |Chain(db, e)| ==>
      Chain(db, e)[i] in db.cats && Level(db, Chain(db, e)[i]) == Level(db, e) - i
    decreases Level(db, e)
  {
    match db.cats[e].parent
    case None =>
    case Some(p) =>
      LevelOfChild(db, e, p);
      ChainLevels(db, p);
      var ch := Chain(db, e);
      forall i | 0 <= i < |ch|
        ensures ch[i] in db.cats && Level(db, ch[i]) == Level(db, e) - i
      {
        if i > 0 {
          assert ch[i] == Chain(db, p)[i - 1];
        }
      }
  }

  /** Two links of one chain on the same level are the same category. */
  lemma ChainLevelUnique(db: Catalogue, e: Code, a: Code, b: Code)
    requires WellFormed(db) && e in db.cats
    requires a in Chain(db, e) && b in Chain(db, e)
    requires a in db.cats && b in db.cats && Level(db, a) == Level(db, b)
    ensures a == b
  {
    ChainLevels(db, e);
    var ch := Chain(db, e);
    var i :| 0 <= i < |ch| && ch[i] == a;
    var j :| 0 <= j < |ch| && ch[j] == b;
  }

  /** Every link of a chain is an ancestor-or-self: its own chain is contained
      in the longer one. */
  lemma {:induction false} ChainTransitive(db: Catalogue, e: Code, a: Code)
    requires WellFormed(db) && e in db.cats && a in Chain(db, e)
    ensures a in db.cats
    ensures forall x :: x in Chain(db, a) ==> x in Chain(db, e)
    decreases Level(db, e)
  {
    if a != e {
      var p := db.cats[e].parent.value;
      LevelOfChild(db, e, p);
      ChainTransitive(db, p, a);
    }
  }

  /** A category that is a strict ancestor of `e` has a child on `e`'s chain. */
  lemma {:induction false} ChildOnChain(db: Catalogue, e: Code, c: Code) returns (k: Code)
    requires WellFormed(db) && e in db.cats
    requires c in Chain(db, e) && c != e
    ensures k in Chain(db, e) && IsChild(db, k, c)
    decreases Level(db, e)
  {
    var p := db.cats[e].parent.value;
    LevelOfChild(db, e, p);
    if p == c {
      k := e;
    } else {
      k := ChildOnChain(db, p, c);
    }
  }

  // ---------------------------------------------------------------------------
  // get_all_sub_categories
  // ---------------------------------------------------------------------------

  /** `Category.objects.filter(parent_category=c)`: the direct children of `c`
      in table order. */
  function Children(db: Catalogue, c: Code): (r: seq<Code>)
    requires WellFormed(db)
    ensures NoDup(r)
    ensures forall k :: k in r <==> IsChild(db, k, c)
  {
    ChildrenAmong(db, db.order, c)
  }

  function ChildrenAmong(db: Catalogue, s: seq<Code>, c: Code): (r: seq<Code>)
    requires NoDup(s)
    ensures NoDup(r)
    ensures forall k :: k in r <==> k in s && IsChild(db, k, c)
  {
    if s == [] then []
    else
      var rest := ChildrenAmong(db, s[1..], c);
      assert s[0] !in s[1..];
      if IsChild(db, s[0], c) then [s[0]] + rest else rest
  }

  /** The categories not on `c`'s chain; it shrinks on every step down the tree. */
  ghost function Below(db: Catalogue, c: Code): set<Code>
    requires WellFormed(db) && c in db.cats
  {
    db.cats.Keys - set x | x in Chain(db, c)
  }

  /** Moving from a category to a child strictly shrinks `Below`. */
  lemma BelowShrinks(db: Catalogue, k: Code, c: Code)
    requires WellFormed(db) && IsChild(db, k, c)
    ensures c in db.cats && Below(db, k) < Below(db, c)
  {
    LevelOfChild(db, k, c);
    assert Chain(db, k) == [k] + Chain(db, c);
    ChainLevels(db, c);
    assert k !in Chain(db, c);
    assert k in Below(db, c);
  }

  /** `c.get_all_sub_categories(include_self)`: `c` itself when asked for,
      followed by the whole subtree of each direct child in turn. */
  function SubCategories(db: Catalogue, c: Code, includeSelf: bool): (r: seq<Code>)
    requires WellFormed(db) && c in db.cats
    ensures includeSelf ==> |r| > 0 && r[0] == c
    decreases Below(db, c), 1
  {
    (if includeSelf then [c] else []) + Subtrees(db, c, Children(db, c))
  }

  /** The concatenated subtrees of `kids`, all of them children of `c`. */
  function Subtrees(db: Catalogue, c: Code, kids: seq<Code>): seq<Code>
    requires WellFormed(db) && c in db.cats
    requires forall k :: k in kids ==> IsChild(db, k, c)
    decreases Below(db, c), 0, |kids|
  {
    if kids == [] then []
    else
      BelowShrinks(db, kids[0], c);
      SubCategories(db, kids[0], true) + Subtrees(db, c, kids[1..])
  }

  /** Soundness: everything returned lies in `c`'s subtree, that is, has `c` on
      its parent chain, and `c` itself only when it was asked for. */
  lemma {:induction false} SubCategoriesSound(db: Catalogue, c: Code, includeSelf: bool)
    requires WellFormed(db) && c in db.cats
    ensures forall e :: e in SubCategories(db, c, includeSelf) ==>
      e in db.cats && c in Chain(db, e) && (includeSelf || e != c)
    decreases Below(db, c), 1
  {
    SubtreesSound(db, c, Children(db, c));
  }

  lemma {:induction false} SubtreesSound(db: Catalogue, c: Code, kids: seq<Code>)
    requires WellFormed(db) && c in db.cats
    requires forall k :: k in kids ==> IsChild(db, k, c)
    ensures forall e :: e in Subtrees(db, c, kids) ==>
      e in db.cats && c in Chain(db, e) && e != c &&
      exists k :: k in kids && k in Chain(db, e)
    decreases Below(db, c), 0, |kids|
  {
    if kids != [] {
      var k := kids[0];
      BelowShrinks(db, k, c);
      SubCategoriesSound(db, k, true);
      SubtreesSound(db, c, kids[1..]);
      forall e | e in SubCategories(db, k, true)
        ensures c in Chain(db, e) && e != c
      {
        LevelOfChild(db, k, c);
        assert Chain(db, k) == [k] + Chain(db, c);
        ChainTransitive(db, e, k);
        ChainLevels(db, c);
        assert k !in Chain(db, c);
        assert k in Chain(db, e);
      }
    }
  }

  /** Every member of `k`'s subtree is in the concatenation for any list of
      children that contains `k`. */
  lemma {:induction false} SubtreesInclude(db: Catalogue, c: Code, kids: seq<Code>, k: Code)
    requires WellFormed(db) && c in db.cats
    requires forall x :: x in kids ==> IsChild(db, x, c)
    requires k in kids && k in db.cats
    ensures forall e :: e in SubCategories(db, k, true) ==> e in Subtrees(db, c, kids)
    decreases |kids|
  {
    if kids[0] != k {
      SubtreesInclude(db, c, kids[1..], k);
    }
  }

  /** Completeness: every category whose parent chain reaches `c` is returned. */
  lemma {:induction false} SubCategoriesComplete(db: Catalogue, c: Code, e: Code)
    requires WellFormed(db) && c in db.cats && e in db.cats
    requires c in Chain(db, e)
    ensures e in SubCategories(db, c, true)
    ensures e != c ==> e in SubCategories(db, c, false)
    decreases Below(db, c)
  {
    if e != c {
      var k := ChildOnChain(db, e, c);
      BelowShrinks(db, k, c);
      ChainTransitive(db, e, k);
      SubCategoriesComplete(db, k, e);
      SubtreesInclude(db, c, Children(db, c), k);
    }
  }

  /** The subtree lists each category exactly once. */
  lemma {:induction false} SubCategoriesNoDup(db: Catalogue, c: Code, includeSelf: bool)
    requires WellFormed(db) && c in db.cats
    ensures NoDup(SubCategories(db, c, includeSelf))
    decreases Below(db, c), 1
  {
    var kids := Children(db, c);
    SubtreesNoDup(db, c, kids);
    SubtreesSound(db, c, kids);
    NoDupConcat(if includeSelf then [c] else [], Subtrees(db, c, kids));
  }

  lemma {:induction false} SubtreesNoDup(db: Catalogue, c: Code, kids: seq<Code>)
    requires WellFormed(db) && c in db.cats
    requires forall k :: k in kids ==> IsChild(db, k, c)
    requires NoDup(kids)
    ensures NoDup(Subtrees(db, c, kids))
    decreases Below(db, c), 0, |kids|
  {
    if kids != [] {
      var k := kids[0];
      var rest := kids[1..];
      BelowShrinks(db, k, c);
      SubCategoriesNoDup(db, k, true);
      SubCategoriesSound(db, k, true);
      assert NoDup(rest);
      SubtreesNoDup(db, c, rest);
      SubtreesSound(db, c, rest);
      forall x | x in SubCategories(db, k, true)
        ensures x !in Subtrees(db, c, rest)
      {
        if x in Subtrees(db, c, rest) {
          var k' :| k' in rest && k' in Chain(db, x);
          LevelOfChild(db, k, c);
          LevelOfChild(db, k', c);
          ChainLevelUnique(db, x, k, k');
          assert false;
        }
      }
      NoDupConcat(SubCategories(db, k, true), Subtrees(db, c, rest));
    }
  }

  /** The subtree is exactly the set of categories with `c` on their parent
      chain (without `c` itself when `includeSelf` is false), each listed
      once. */
  lemma SubCategoriesExact(db: Catalogue, c: Code, includeSelf: bool)
    requires WellFormed(db) && c in db.cats
    ensures NoDup(SubCategories(db, c, includeSelf))
    ensures forall e :: e in SubCategories(db, c, includeSelf) <==>
      e in db.cats && c in Chain(db, e) && (includeSelf || e != c)
  {
    SubCategoriesNoDup(db, c, includeSelf);
    SubCategoriesSound(db, c, includeSelf);
    forall e | e in db.cats && c in Chain(db, e) && (includeSelf || e != c)
      ensures e in SubCategories(db, c, includeSelf)
    {
      SubCategoriesComplete(db, c, e);
    }
  }

  /** Membership of one category in a subtree. */
  lemma InSubtree(db: Catalogue, c: Code, e: Code)
    requires WellFormed(db) && c in db.cats
    ensures e in SubCategories(db, c, true) <==> e in db.cats && c in Chain(db, e)
  {
    SubCategoriesSound(db, c, true);
    if e in db.cats && c in Chain(db, e) {
      SubCategoriesComplete(db, c, e);
    }
  }

  // ---------------------------------------------------------------------------
  // get_all_attributes
  // ---------------------------------------------------------------------------

  /** `c.get_all_attributes()`: own attributes, then the parent's result. */
  function AllAttributes(db: Catalogue, c: Code): (r: seq<CategoryAttribute>)
    requires WellFormed(db) && c in db.cats
    ensures |r| >= |db.cats[c].attributes| && r[..|db.cats[c].attributes|] == db.cats[c].attributes
    ensures db.cats[c].parent.None? ==> r == db.cats[c].attributes
    decreases Level(db, c)
  {
    match db.cats[c].parent
    case None => db.cats[c].attributes
    case Some(p) =>
      LevelOfChild(db, c, p);
      db.cats[c].attributes + AllAttributes(db, p)
  }

  /** The own attributes of each category of `cs`, concatenated in order. */
  function OwnAttributesOf(db: Catalogue, cs: seq<Code>): seq<CategoryAttribute>
    requires forall x :: x in cs ==> x in db.cats
  {
    if cs == [] then [] else db.cats[cs[0]].attributes + OwnAttributesOf(db, cs[1..])
  }

  /** Total number of own attributes over `cs`. */
  function AttributeCount(db: Catalogue, cs: seq<Code>): nat
    requires forall x :: x in cs ==> x in db.cats
  {
    if cs == [] then 0 else |db.cats[cs[0]].attributes| + AttributeCount(db, cs[1..])
  }

  lemma {:induction false} OwnAttributesLength(db: Catalogue, cs: seq<Code>)
    requires forall x :: x in cs ==> x in db.cats
    ensures |OwnAttributesOf(db, cs)| == AttributeCount(db, cs)
    decreases |cs|
  {
    if cs != [] {
      OwnAttributesLength(db, cs[1..]);
    }
  }

  lemma {:induction false} OwnAttributesMembers(db: Catalogue, cs: seq<Code>, a: CategoryAttribute)
    requires forall x :: x in cs ==> x in db.cats
    ensures a in OwnAttributesOf(db, cs) <==> exists x :: x in cs && a in db.cats[x].attributes
    decreases |cs|
  {
    if cs != [] {
      OwnAttributesMembers(db, cs[1..], a);
      assert forall x :: x in cs <==> x == cs[0] || x in cs[1..];
    }
  }

  /** The inherited attribute list is the concatenation, nearest first, of the
      own attributes of every category on the parent chain; its length is the
      sum of their own-attribute counts. */
  lemma {:induction false} AllAttributesAlongChain(db: Catalogue, c: Code)
    requires WellFormed(db) && c in db.cats
    ensures forall x :: x in Chain(db, c) ==> x in db.cats
    ensures AllAttributes(db, c) == OwnAttributesOf(db, Chain(db, c))
    ensures |AllAttributes(db, c)| == AttributeCount(db, Chain(db, c))
    decreases Level(db, c)
  {
    ChainLevels(db, c);
    match db.cats[c].parent
    case None =>
      assert Chain(db, c) == [c];
      assert Chain(db, c)[1..] == [];
    case Some(p) =>
      LevelOfChild(db, c, p);
      AllAttributesAlongChain(db, p);
      assert Chain(db, c)[1..] == Chain(db, p);
    OwnAttributesLength(db, Chain(db, c));
  }

  /** An attribute is inherited by `c` exactly when some category on `c`'s
      parent chain defines it. */
  lemma AllAttributesMembers(db: Catalogue, c: Code, a: CategoryAttribute)
    requires WellFormed(db) && c in db.cats
    ensures a in AllAttributes(db, c) <==>
      exists x :: x in Chain(db, c) && x in db.cats && a in db.cats[x].attributes
  {
    AllAttributesAlongChain(db, c);
    OwnAttributesMembers(db, Chain(db, c), a);
  }

  // ---------------------------------------------------------------------------
  // Deleting a category
  // ---------------------------------------------------------------------------

  /** Deleting category `c`: its record and attribute definitions go, its
      children's parent link is set to null (`on_delete=SET_NULL`), and no
      other category is touched. */
  function DeleteCategory(db: Catalogue, c: Code): (r: Catalogue)
    requires WellFormed(db) && c in db.cats
    ensures WellFormed(r)
    ensures r.cats.Keys == db.cats.Keys - {c}
    ensures forall k :: k in r.cats ==>
      r.cats[k].shortName == db.cats[k].shortName &&
      r.cats[k].name == db.cats[k].name &&
      r.cats[k].attributes == db.cats[k].attributes
    ensures forall k :: k in r.cats ==>
      r.cats[k].parent == (if db.cats[k].parent == Some(c) then None else db.cats[k].parent)
  {
    DeleteKeepsWellFormed(db, c);
    Catalogue(Unlink(db.cats, c), Remove(db.order, c))
  }

  /** The records left once `c` is gone, with parent links into `c` nulled. */
  function Unlink(cats: map<Code, Category>, c: Code): map<Code, Category> {
    map k | k in cats && k != c ::
      if cats[k].parent == Some(c) then cats[k].(parent := None) else cats[k]
  }

  lemma DeleteKeepsWellFormed(db: Catalogue, c: Code)
    requires WellFormed(db) && c in db.cats
    ensures WellFormed(Catalogue(Unlink(db.cats, c), Remove(db.order, c)))
  {
    var cats := Unlink(db.cats, c);
    assert Acyclic(cats) by {
      forall k | k in cats
        ensures exists n :: Depth(cats, k, n).Some?
      {
        var n :| Depth(db.cats, k, n).Some?;
        DepthAfterDelete(db.cats, c, k, n);
      }
    }
  }

  function Remove(s: seq<Code>, c: Code): (r: seq<Code>)
    requires NoDup(s)
    ensures NoDup(r)
    ensures forall x :: x in r <==> x in s && x != c
  {
    if s == [] then []
    else
      assert s[0] !in s[1..];
      if s[0] == c then Remove(s[1..], c) else [s[0]] + Remove(s[1..], c)
  }

  /** Nulling the parent links into a deleted category keeps every chain finite. */
  lemma {:induction false} DepthAfterDelete(cats: map<Code, Category>, c: Code, k: Code, n: nat)
    requires k in cats && k != c && Depth(cats, k, n).Some?
    ensures Depth(Unlink(cats, c), k, n).Some?
    decreases n
  {
    match cats[k].parent
    case None =>
    case Some(p) =>
      if p != c {
        DepthAfterDelete(cats, c, p, n - 1);
      }
  }
}

=== FILE: facets.dfy ===
/** The faceted search endpoint, `SearchView.list` of `posts/views.py`: the
    filtered posts from `generate_qs`, and beside them one count per candidate
    category, built by a counting fold over the filtered posts.

    The candidates are every category when no `cat` is given, otherwise the
    subtree of the requested category.  A filtered post whose category is not
    a candidate makes the fold raise `KeyError`. */
module Facets {
  import opened Wrappers
  import opened Categories
  import opened Posts
  import opened Query
  import opened Resolver

  /** One entry of `category_counts`: the category's code and name, and how
      many filtered posts it holds. */
  datatype Facet = Facet(shortName: Code, name: string, count: nat)

  // ---------------------------------------------------------------------------
  // Counting
  // ---------------------------------------------------------------------------

  /** The number of posts of `posts` filed under category `c`. */
  function CountIn(posts: seq<Post>, c: Code): (n: nat)
    ensures n <= |posts|
    decreases |posts|
  {
    if posts == [] then 0
    else CountIn(posts[..|posts| - 1], c) + (if posts[|posts| - 1].category == c then 1 else 0)
  }

  /** A category has a zero count exactly when none of the posts is filed
      under it. */
  lemma {:induction false} CountInZero(posts: seq<Post>, c: Code)
    ensures CountIn(posts, c) == 0 <==> forall i :: 0 <= i < |posts| ==> posts[i].category != c
    decreases |posts|
  {
    if posts != [] {
      var init := posts[..|posts| - 1];
      CountInZero(init, c);
      assert forall i :: 0 <= i < |init| ==> init[i] == posts[i];
    }
  }

  /** Appending one post adds one to its own category's count only. */
  lemma CountInAppend(posts: seq<Post>, post: Post, c: Code)
    ensures CountIn(posts + [post], c) == CountIn(posts, c) + (if post.category == c then 1 else 0)
  {
    assert (posts + [post])[..|posts|] == posts;
  }

  /** The sum of the counts of `codes`. */
  function CountTotal(posts: seq<Post>, codes: seq<Code>): nat
    decreases |codes|
  {
    if codes == [] then 0 else CountIn(posts, codes[0]) + CountTotal(posts, codes[1..])
  }

  /** How often `x` occurs in `codes`. */
  function Hits(codes: seq<Code>, x: Code): (n: nat)
    ensures n == 0 <==> x !in codes
    decreases |codes|
  {
    if codes == [] then 0
    else
      assert forall y :: y in codes <==> y == codes[0] || y in codes[1..];
      (if codes[0] == x then 1 else 0) + Hits(codes[1..], x)
  }

  lemma {:induction false} HitsNoDup(codes: seq<Code>, x: Code)
    requires NoDup(codes) && x in codes
    ensures Hits(codes, x) == 1
    decreases |codes|
  {
    assert NoDup(codes[1..]) by {
      forall i, j | 0 <= i < j < |codes[1..]| ensures codes[1..][i] != codes[1..][j] {
        assert codes[1..][i] == codes[i + 1] && codes[1..][j] == codes[j + 1];
      }
    }
    if codes[0] == x {
      forall j | 0 <= j < |codes[1..]| ensures codes[1..][j] != x {
        assert codes[1..][j] == codes[j + 1];
      }
    } else {
      HitsNoDup(codes[1..], x);
    }
  }

  /** One more post raises the total by the number of times its category is
      listed. */
  lemma {:induction false} CountTotalAppend(posts: seq<Post>, post: Post, codes: seq<Code>)
    ensures CountTotal(posts + [post], codes) == CountTotal(posts, codes) + Hits(codes, post.category)
    decreases |codes|
  {
    if codes != [] {
      CountInAppend(posts, post, codes[0]);
      CountTotalAppend(posts, post, codes[1..]);
    }
  }

  /** When the candidate codes are distinct and cover every post's category,
      the counts add up to the number of posts: each post is counted once. */
  lemma {:induction false} CountTotalIsSize(posts: seq<Post>, codes: seq<Code>)
    requires NoDup(codes)
    requires forall i :: 0 <= i < |posts| ==> posts[i].category in codes
    ensures CountTotal(posts, codes) == |posts|
    decreases |posts|
  {
    if posts == [] {
      CountTotalEmpty(codes);
    } else {
      var init := posts[..|posts| - 1];
      var last := posts[|posts| - 1];
      assert posts == init + [last];
      CountTotalIsSize(init, codes);
      CountTotalAppend(init, last, codes);
      HitsNoDup(codes, last.category);
    }
  }

  lemma {:induction false} CountTotalEmpty(codes: seq<Code>)
    ensures CountTotal([], codes) == 0
    decreases |codes|
  {
    if codes != [] {
      CountTotalEmpty(codes[1..]);
    }
  }

  /** The sum of the `count` fields of the facets listed in `codes`. */
  function FacetTotal(counts: map<Code, Facet>, codes: seq<Code>): nat
    requires forall c :: c in codes ==> c in counts
    decreases |codes|
  {
    if codes == [] then 0 else counts[codes[0]].count + FacetTotal(counts, codes[1..])
  }

  lemma {:induction false} FacetTotalIsCountTotal(counts: map<Code, Facet>, codes: seq<Code>, posts: seq<Post>)
    requires forall c :: c in codes ==> c in counts && counts[c].count == CountIn(posts, c)
    ensures FacetTotal(counts, codes) == CountTotal(posts, codes)
    decreases |codes|
  {
    if codes != [] {
      FacetTotalIsCountTotal(counts, codes[1..], posts);
    }
  }

  /** The first loop of `SearchView.list`: a zero entry for every candidate
      category. */
  method ZeroCounts(db: Catalogue, candidates: seq<Code>) returns (counts: map<Code, Facet>)
    requires forall c :: c in candidates ==> c in db.cats
    ensures forall c :: c in counts <==> c in candidates
    ensures forall c :: c in counts ==> counts[c] == Facet(c, db.cats[c].name, 0)
  {
    counts := map[];
    var i := 0;
    while i < |candidates|
      invariant 0 <= i <= |candidates|
      invariant forall c :: c in counts <==> c in candidates[..i]
      invariant forall c :: c in counts ==> counts[c] == Facet(c, db.cats[c].name, 0)
    {
      var c := candidates[i];
      counts := counts[c := Facet(c, db.cats[c].name, 0)];
      assert candidates[..i + 1] == candidates[..i] + [c];
      i := i + 1;
    }
    assert candidates[..i] == candidates;
  }

  /** `counts` holds, for each of its categories, the category's code and
      name and the number of `posts` filed under it. */
  predicate Tallied(db: Catalogue, counts: map<Code, Facet>, posts: seq<Post>) {
    forall c :: c in counts ==> c in db.cats && counts[c] == Facet(c, db.cats[c].name, CountIn(posts, c))
  }

  /** Adding one to the entry of `post`'s category. */
  function Bump(counts: map<Code, Facet>, cat: Code): (r: map<Code, Facet>)
    requires cat in counts
    ensures r.Keys == counts.Keys
  {
    counts[cat := counts[cat].(count := counts[cat].count + 1)]
  }

  /** One step of the counting loop: bumping the entry of the next post's
      category turns the counts of `posts` into the counts of `posts + [post]`. */
  lemma BumpCounts(db: Catalogue, counts: map<Code, Facet>, posts: seq<Post>, post: Post)
    requires post.category in counts && Tallied(db, counts, posts)
    ensures Tallied(db, Bump(counts, post.category), posts + [post])
  {
    forall c | c in counts
      ensures CountIn(posts + [post], c) == CountIn(posts, c) + (if post.category == c then 1 else 0)
    {
      CountInAppend(posts, post, c);
    }
  }

  /** The two loops of `SearchView.list` that build `category_counts`: a zero
      entry for every candidate category, then one increment per filtered
      post, raising `KeyError` for the first post whose category has no
      entry. */
  method CountFacets(db: Catalogue, candidates: seq<Code>, posts: seq<Post>) returns (r: Result<map<Code, Facet>, Error>)
    requires forall c :: c in candidates ==> c in db.cats
    ensures r.Success? <==> forall i :: 0 <= i < |posts| ==> posts[i].category in candidates
    ensures r.Failure? ==> exists i :: (0 <= i < |posts| && posts[i].category !in candidates &&
      r.error == MissingFacet(posts[i].category) &&
      forall j :: 0 <= j < i ==> posts[j].category in candidates)
    ensures r.Success? ==> forall c :: c in r.value <==> c in candidates
    ensures r.Success? ==> forall c :: c in r.value ==>
      r.value[c] == Facet(c, db.cats[c].name, CountIn(posts, c))
    ensures r.Success? && NoDup(candidates) ==> FacetTotal(r.value, candidates) == |posts|
  {
    var counts := ZeroCounts(db, candidates);
    var k := 0;
    while k < |posts|
      invariant 0 <= k <= |posts|
      invariant forall c :: c in counts <==> c in candidates
      invariant forall j :: 0 <= j < k ==> posts[j].category in candidates
      invariant Tallied(db, counts, posts[..k])
    {
      var cat := posts[k].category;
      if cat !in counts {
        r := Failure(MissingFacet(cat));
        assert 0 <= k < |posts| && posts[k].category !in candidates && r.error == MissingFacet(posts[k].category);
        return;
      }
      BumpCounts(db, counts, posts[..k], posts[k]);
      assert posts[..k] + [posts[k]] == posts[..k + 1];
      counts := Bump(counts, cat);
      k := k + 1;
    }
    assert posts[..k] == posts;
    if NoDup(candidates) {
      FacetTotalIsCountTotal(counts, candidates, posts);
      CountTotalIsSize(posts, candidates);
    }
    return Success(counts);
  }

  // ---------------------------------------------------------------------------
  // Which categories get a facet
  // ---------------------------------------------------------------------------

  /** `Category.objects.all()` when no code is given, otherwise
      `Category.objects.get(pk=c).get_all_sub_categories()`.  An unknown code
      raises `Category.DoesNotExist`. */
  function CandidatesFor(db: Catalogue, cat: Option<Code>): (r: Result<seq<Code>, Error>)
    requires WellFormed(db)
    ensures r.Failure? <==> cat.Some? && cat.value !in db.cats
    ensures r.Success? ==> NoDup(r.value)
    ensures r.Success? && cat.None? ==> forall c :: c in r.value <==> c in db.cats
    ensures r.Success? && cat.Some? ==>
      forall c :: c in r.value <==> c in db.cats && cat.value in Chain(db, c)
  {
    match cat
    case None => Success(db.order)
    case Some(c) =>
      if c !in db.cats then Failure(DoesNotExist(c))
      else
        SubCategoriesExact(db, c, true);
        Success(SubCategories(db, c, true))
  }

  /** Different codes give different candidates: an unknown code fails with
      its own code, and a known one heads its own subtree. */
  lemma CandidatesForInjective(db: Catalogue, c1: Code, c2: Code)
    requires WellFormed(db) && c1 != c2
    ensures CandidatesFor(db, Some(c1)) != CandidatesFor(db, Some(c2))
  {
    if c1 in db.cats && c2 in db.cats {
      assert CandidatesFor(db, Some(c1)).value[0] == c1;
      assert CandidatesFor(db, Some(c2)).value[0] == c2;
    }
  }

  /** The candidate categories for the category the filter actually
      restricts to, the FIRST `cat` value: its subtree, or every category when
      no `cat` is given. */
  function FacetCandidates(db: Catalogue, q: QueryDict): (r: Result<seq<Code>, Error>)
    requires WellFormed(db) && WellFormedQuery(q)
    ensures r.Failure? <==> RequestedCategory(q).Some? && RequestedCategory(q).value !in db.cats
    ensures r.Success? ==> NoDup(r.value)
    ensures r.Success? && RequestedCategory(q).None? ==> forall c :: c in r.value <==> c in db.cats
    ensures r.Success? && RequestedCategory(q).Some? ==>
      forall c :: c in r.value <==> c in db.cats && RequestedCategory(q).value in Chain(db, c)
  {
    CandidatesFor(db, RequestedCategory(q))
  }

  /** The candidates as `SearchView.list` computes them: from
      `query_params.get('cat')`, which is the LAST `cat` value. */
  function FacetCandidatesAsWritten(db: Catalogue, q: QueryDict): (r: Result<seq<Code>, Error>)
    requires WellFormed(db) && WellFormedQuery(q)
    ensures r.Failure? <==> GetLast(q, CatKey).Some? && GetLast(q, CatKey).value !in db.cats
    ensures r.Success? ==> NoDup(r.value)
    ensures r.Success? && GetLast(q, CatKey).None? ==> forall c :: c in r.value <==> c in db.cats
    ensures r.Success? && GetLast(q, CatKey).Some? ==>
      forall c :: c in r.value <==> c in db.cats && GetLast(q, CatKey).value in Chain(db, c)
  {
    CandidatesFor(db, GetLast(q, CatKey))
  }

  /** Reading `cat` with `get` (its last value) picks the same candidates as
      the filter's reading (its first value) exactly when the two values are
      the same code; in particular whenever `cat` is given once. */
  lemma CandidatesAgreeIffSameCat(db: Catalogue, q: QueryDict)
    requires WellFormed(db) && WellFormedQuery(q)
    ensures FacetCandidatesAsWritten(db, q) == FacetCandidates(db, q) <==>
      GetLast(q, CatKey) == RequestedCategory(q)
    ensures GetList(q, CatKey).Some? && |GetList(q, CatKey).value| == 1 ==>
      FacetCandidatesAsWritten(db, q) == FacetCandidates(db, q)
  {
    var first, last := RequestedCategory(q), GetLast(q, CatKey);
    assert first.Some? <==> last.Some?;
    if first.Some? && first != last {
      CandidatesForInjective(db, first.value, last.value);
    }
  }

  /** With the candidates taken from the first `cat` value, every post the
      filter keeps has a facet: the fold can never raise. */
  lemma FacetCandidatesCoverResults(db: Catalogue, q: QueryDict, post: Post, search: TextSearch)
    requires WellFormed(db) && WellFormedQuery(q)
    requires post.category in db.cats
    requires GenerateQs(db, q).Success? && Eval(GenerateQs(db, q).value, post, search)
    ensures FacetCandidates(db, q).Success?
    ensures post.category in FacetCandidates(db, q).value
  {
    GenerateQsMeaning(db, q, post, search);
  }

  // ---------------------------------------------------------------------------
  // The endpoint
  // ---------------------------------------------------------------------------

  /** The response body: the filtered posts and `category_counts`, whose keys
      are listed in insertion order by `order`. */
  datatype SearchResult = SearchResult(results: seq<Post>, order: seq<Code>, counts: map<Code, Facet>)

  /** `SearchView.list` with the candidates taken from the first `cat` value.
      `store` is the post table in its default order (newest first). */
  method Search(db: Catalogue, q: QueryDict, store: seq<Post>, search: TextSearch) returns (r: Result<SearchResult, Error>)
    requires WellFormed(db) && WellFormedQuery(q)
    requires forall post :: post in store ==> post.category in db.cats
    ensures r.Failure? <==> SearchFails(db, q)
    ensures r.Success? ==> forall post :: post in r.value.results <==>
      post in store && SearchMatches(db, q, post, search)
    ensures r.Success? ==> forall c :: c in r.value.counts <==> c in r.value.order
    ensures r.Success? ==> forall c :: c in r.value.counts ==>
      c in db.cats && r.value.counts[c] == Facet(c, db.cats[c].name, CountIn(r.value.results, c))
    ensures r.Success? ==> FacetTotal(r.value.counts, r.value.order) == |r.value.results|
    ensures r.Success? ==> FacetCandidates(db, q) == Success(r.value.order)
  {
    GenerateQsFailure(db, q);
    var f :- GenerateQs(db, q);
    var results := Filter(store, f, search);
    forall post | post in results
      ensures post.category in FacetCandidates(db, q).value
      ensures SearchMatches(db, q, post, search)
    {
      FacetCandidatesCoverResults(db, q, post, search);
      GenerateQsMeaning(db, q, post, search);
    }
    forall post | post in store && SearchMatches(db, q, post, search)
      ensures post in results
    {
      GenerateQsMeaning(db, q, post, search);
    }
    var candidates := FacetCandidates(db, q).value;
    var counts := CountFacets(db, candidates, results);
    if counts.Failure? {
      assert false;
    }
    return Success(SearchResult(results, candidates, counts.value));
  }

  /** `SearchView.list` as written, with the candidates taken from the last
      `cat` value.  It succeeds only when every filtered post falls into that
      candidate set. */
  method SearchAsWritten(db: Catalogue, q: QueryDict, store: seq<Post>, search: TextSearch) returns (r: Result<SearchResult, Error>)
    requires WellFormed(db) && WellFormedQuery(q)
    requires forall post :: post in store ==> post.category in db.cats
    ensures r.Failure? <==>
      || SearchFails(db, q)
      || FacetCandidatesAsWritten(db, q).Failure?
      || exists post :: post in store && SearchMatches(db, q, post, search) &&
           post.category !in FacetCandidatesAsWritten(db, q).value
    ensures r.Success? ==> forall post :: post in r.value.results <==>
      post in store && SearchMatches(db, q, post, search)
    ensures r.Success? ==> forall c :: c in r.value.counts ==>
      c in db.cats && r.value.counts[c] == Facet(c, db.cats[c].name, CountIn(r.value.results, c))
    ensures r.Success? ==> FacetCandidatesAsWritten(db, q) == Success(r.value.order)
    ensures r.Success? ==> forall c :: c in r.value.counts <==> c in r.value.order
  {
    GenerateQsFailure(db, q);
    var f :- GenerateQs(db, q);
    var results := Filter(store, f, search);
    forall post | post in store
      ensures post in results <==> SearchMatches(db, q, post, search)
    {
      GenerateQsMeaning(db, q, post, search);
    }
    var candidates :- FacetCandidatesAsWritten(db, q);
    var counts :- CountFacets(db, candidates, results);
    return Success(SearchResult(results, candidates, counts));
  }

  // ---------------------------------------------------------------------------
  // A repeated `cat` parameter
  // ---------------------------------------------------------------------------

  /** Vehicles (VEH) with two sub-categories, cars (CAR) and bikes (BIK). */
  function Vehicles(): Catalogue {
    Catalogue(
      map[
        "VEH" := Category("VEH", "Vehicles", None, []),
        "CAR" := Category("CAR", "Cars", Some("VEH"), []),
        "BIK" := Category("BIK", "Bikes", Some("VEH"), [])],
      ["BIK", "CAR", "VEH"])
  }

  lemma VehiclesWellFormed()
    ensures WellFormed(Vehicles())
  {
    var db := Vehicles();
    assert Depth(db.cats, "VEH", 0) == Some(0);
    assert Depth(db.cats, "CAR", 1) == Some(1);
    assert Depth(db.cats, "BIK", 1) == Some(1);
  }

  /** The query string `?cat=VEH&cat=CAR`. */
  function VehiclesThenCars(): QueryDict {
    [Param(CatKey, ["VEH", "CAR"])]
  }

  /** The filter uses the first value, the facet lookup the last. */
  lemma VehiclesThenCarsValues()
    ensures WellFormedQuery(VehiclesThenCars())
    ensures RequestedCategory(VehiclesThenCars()) == Some("VEH")
    ensures GetLast(VehiclesThenCars(), CatKey) == Some("CAR")
    ensures forall p :: p in VehiclesThenCars() ==> Reserved(p.key)
  {
    assert GetList(VehiclesThenCars(), CatKey) == Some(["VEH", "CAR"]);
  }

  lemma BikeChain()
    ensures WellFormed(Vehicles())
    ensures Chain(Vehicles(), "BIK") == ["BIK", "VEH"]
  {
    VehiclesWellFormed();
    assert Chain(Vehicles(), "VEH") == ["VEH"];
  }

  /** `generate_qs` on `?cat=VEH&cat=CAR` searches the VEH subtree, so it
      keeps a bike. */
  lemma BikePassesFilter(bike: Post, search: TextSearch)
    requires bike.category == "BIK"
    ensures WellFormed(Vehicles()) && WellFormedQuery(VehiclesThenCars())
    ensures GenerateQs(Vehicles(), VehiclesThenCars()).Success?
    ensures Eval(GenerateQs(Vehicles(), VehiclesThenCars()).value, bike, search)
  {
    var db := Vehicles();
    var q := VehiclesThenCars();
    BikeChain();
    VehiclesThenCarsValues();
    GenerateQsMeaning(db, q, bike, search);
    assert !SearchFails(db, q);
    assert SearchMatches(db, q, bike, search);
  }

  /** The facet candidates from CAR leave BIK out; those from VEH hold it. */
  lemma BikeFacets()
    ensures WellFormed(Vehicles()) && WellFormedQuery(VehiclesThenCars())
    ensures FacetCandidatesAsWritten(Vehicles(), VehiclesThenCars()).Success?
    ensures "BIK" !in FacetCandidatesAsWritten(Vehicles(), VehiclesThenCars()).value
    ensures FacetCandidates(Vehicles(), VehiclesThenCars()).Success?
    ensures "BIK" in FacetCandidates(Vehicles(), VehiclesThenCars()).value
  {
    BikeChain();
    VehiclesThenCarsValues();
  }

  /** `?cat=VEH&cat=CAR` with a bike on file: `generate_qs` searches the VEH
      subtree and keeps the bike, but the facet candidates come from CAR, so
      the bike has no facet entry and the counting loop raises `KeyError`.
      Taking the first value instead gives the bike its facet. */
  lemma RepeatedCatLosesFacet(bike: Post, search: TextSearch)
    requires bike.category == "BIK"
    ensures WellFormed(Vehicles()) && WellFormedQuery(VehiclesThenCars())
    ensures GenerateQs(Vehicles(), VehiclesThenCars()).Success?
    ensures Eval(GenerateQs(Vehicles(), VehiclesThenCars()).value, bike, search)
    ensures FacetCandidatesAsWritten(Vehicles(), VehiclesThenCars()).Success?
    ensures bike.category !in FacetCandidatesAsWritten(Vehicles(), VehiclesThenCars()).value
    ensures FacetCandidates(Vehicles(), VehiclesThenCars()).Success?
    ensures bike.category in FacetCandidates(Vehicles(), VehiclesThenCars()).value
  {
    BikePassesFilter(bike, search);
    BikeFacets();
  }
}

=== FILE: fields.dfy ===
/** Field projection of `posts/utils.py`: a view reads the `fields` query
    parameter, and its serializer drops every declared field that is not
    named there.  `ex_fields` is read by the serializer, but the view never
    passes it on, so it never changes the output. */
module Fields {
  import opened Wrappers
  import opened Query

  const FieldsKey := "fields"
  const ExFieldsKey := "ex_fields"

  // ---------------------------------------------------------------------------
  // Order-preserving filters over field names
  // ---------------------------------------------------------------------------

  /** The names of `s` that lie in `allowed`, in their original order. */
  function Keep(s: seq<string>, allowed: set<string>): (r: seq<string>)
    ensures forall f :: f in r <==> f in s && f in allowed
    ensures |r| <= |s|
    decreases |s|
  {
    if s == [] then []
    else
      assert forall f :: f in s <==> f == s[0] || f in s[1..];
      (if s[0] in allowed then [s[0]] else []) + Keep(s[1..], allowed)
  }

  /** `a` is `b` with some names deleted: the names of `a` appear in `b` in
      the same relative order. */
  predicate IsSubsequence(a: seq<string>, b: seq<string>)
    decreases |b|
  {
    if a == [] then true
    else if b == [] then false
    else if a[0] == b[0] then IsSubsequence(a[1..], b[1..])
    else IsSubsequence(a, b[1..])
  }

  lemma {:induction false} KeepIsSubsequence(s: seq<string>, allowed: set<string>)
    ensures IsSubsequence(Keep(s, allowed), s)
    decreases |s|
  {
    if s != [] {
      var rest := Keep(s[1..], allowed);
      KeepIsSubsequence(s[1..], allowed);
      if s[0] in allowed {
        assert Keep(s, allowed) == [s[0]] + rest;
        assert ([s[0]] + rest)[1..] == rest;
      } else {
        assert Keep(s, allowed) == rest;
        SubsequenceOfTail(rest, s);
      }
    }
  }

  /** A subsequence of the tail is a subsequence of the whole. */
  lemma {:induction false} SubsequenceOfTail(a: seq<string>, b: seq<string>)
    requires b != [] && IsSubsequence(a, b[1..])
    ensures IsSubsequence(a, b)
    decreases |b|, 0
  {
    if a != [] && a[0] == b[0] {
      // `IsSubsequence(a, b[1..])` consumed `a[0]` somewhere in `b[1..]`, so
      // the rest of `a` is a subsequence of the rest of `b`.
      SubsequenceDropHead(a, b[1..]);
    }
  }

  lemma {:induction false} SubsequenceDropHead(a: seq<string>, b: seq<string>)
    requires a != [] && IsSubsequence(a, b)
    ensures IsSubsequence(a[1..], b)
    decreases |b|, 1
  {
    if a[0] == b[0] {
      if a[1..] != [] {
        SubsequenceOfTail(a[1..], b);
      }
    } else {
      SubsequenceDropHead(a, b[1..]);
      if a[1..] != [] {
        SubsequenceOfTail(a[1..], b);
      }
    }
  }

  /** Names not in `allowed` are exactly the ones removed. */
  lemma {:induction false} KeepAll(s: seq<string>, allowed: set<string>)
    requires forall f :: f in s ==> f in allowed
    ensures Keep(s, allowed) == s
    decreases |s|
  {
    if s != [] {
      KeepAll(s[1..], allowed);
    }
  }

  /** Filtering twice with the same set is filtering once. */
  lemma {:induction false} KeepTwice(s: seq<string>, allowed: set<string>)
    ensures Keep(Keep(s, allowed), allowed) == Keep(s, allowed)
  {
    KeepAll(Keep(s, allowed), allowed);
  }

  /** `fields.pop(x)` on a list of field names: every occurrence of `x`
      removed, the rest in order. */
  function Drop(s: seq<string>, x: string): (r: seq<string>)
    ensures forall f :: f in r <==> f in s && f != x
    decreases |s|
  {
    if s == [] then []
    else
      assert forall f :: f in s <==> f == s[0] || f in s[1..];
      (if s[0] == x then [] else [s[0]]) + Drop(s[1..], x)
  }

  /** Dropping one more name from a filtered list narrows the filter. */
  lemma {:induction false} DropKeep(s: seq<string>, allowed: set<string>, x: string)
    ensures Drop(Keep(s, allowed), x) == Keep(s, allowed - {x})
    decreases |s|
  {
    if s != [] {
      var rest := Keep(s[1..], allowed);
      DropKeep(s[1..], allowed, x);
      if s[0] in allowed {
        assert Keep(s, allowed) == [s[0]] + rest;
        assert ([s[0]] + rest)[1..] == rest;
        assert Drop([s[0]] + rest, x) == (if s[0] == x then [] else [s[0]]) + Drop(rest, x);
      } else {
        assert Keep(s, allowed) == rest;
      }
    }
  }

  /** The fields that survive the serializer's constructor: all of them when
      no names were requested, otherwise the existing fields that were named,
      in their declared order. */
  function Project(existing: seq<string>, requested: seq<string>): (r: seq<string>)
    ensures requested == [] ==> r == existing
    ensures requested != [] ==> forall f :: f in r <==> f in existing && f in requested
    ensures forall f :: f in r ==> f in existing
  {
    if requested == [] then existing else Keep(existing, set f | f in requested)
  }

  /** Surviving fields keep their declared relative order. */
  lemma ProjectPreservesOrder(existing: seq<string>, requested: seq<string>)
    ensures IsSubsequence(Project(existing, requested), existing)
  {
    if requested == [] {
      SubsequenceRefl(existing);
    } else {
      KeepIsSubsequence(existing, set f | f in requested);
    }
  }

  lemma {:induction false} SubsequenceRefl(s: seq<string>)
    ensures IsSubsequence(s, s)
    decreases |s|
  {
    if s != [] {
      SubsequenceRefl(s[1..]);
    }
  }

  /** Projecting twice with the same names is projecting once. */
  lemma ProjectIdempotent(existing: seq<string>, requested: seq<string>)
    ensures Project(Project(existing, requested), requested) == Project(existing, requested)
  {
    if requested != [] {
      KeepTwice(existing, set f | f in requested);
    }
  }

  /** `for field_name in existing - allowed: self.fields.pop(field_name)`,
      run on the serializer's field list when at least one name was
      requested.  The set difference is visited in no particular order. */
  method DropUnrequested(existing: seq<string>, requested: seq<string>) returns (kept: seq<string>)
    ensures kept == Project(existing, requested)
  {
    kept := existing;
    if |requested| > 0 {
      var allowed := set f | f in requested;
      var toDrop := (set f | f in existing) - allowed;
      KeepAll(existing, allowed + toDrop);
      while toDrop != {}
        invariant toDrop !! allowed
        invariant kept == Keep(existing, allowed + toDrop)
        decreases toDrop
      {
        var name :| name in toDrop;
        DropKeep(existing, allowed + toDrop, name);
        assert (allowed + toDrop) - {name} == allowed + (toDrop - {name});
        kept := Drop(kept, name);
        toDrop := toDrop - {name};
      }
      assert allowed + toDrop == allowed;
    }
  }

  // ---------------------------------------------------------------------------
  // The request parameters
  // ---------------------------------------------------------------------------

  /** `query_params.getlist('fields', None)`: the requested names, or none
      when the parameter is absent. */
  function RequestedFields(q: QueryDict): (r: seq<string>)
    ensures r == [] <==> GetList(q, FieldsKey).None? || GetList(q, FieldsKey) == Some([])
    ensures r != [] ==> Param(FieldsKey, r) in q
  {
    match GetList(q, FieldsKey)
    case None => []
    case Some(vs) => vs
  }

  /** The fields a response carries for a serializer declaring `existing`. */
  function ServedFields(q: QueryDict, existing: seq<string>): (r: seq<string>)
    ensures GetList(q, FieldsKey).None? ==> r == existing
    ensures forall f :: f in r ==> f in existing
  {
    Project(existing, RequestedFields(q))
  }

  /** `ex_fields` has no effect: dropping it from the request changes nothing
      in the output. */
  lemma ExFieldsIgnored(q: QueryDict, existing: seq<string>)
    requires WellFormedQuery(q)
    ensures ServedFields(Without(q, ExFieldsKey), existing) == ServedFields(q, existing)
  {
    GetListWithout(q, ExFieldsKey, FieldsKey);
  }
}

=== FILE: posts.dfy ===
/** Listings (`Post`), their free-form JSON attribute documents
    (`PostAttribute`) and the storage path of an uploaded photo
    (`upload_post_image`). */
module Posts {
  import opened Wrappers
  import opened Strings
  import Categories

  /** JSON values as stored in a `PostAttribute.data` document.  Nested
      objects and floating-point numbers are not modelled. */
  datatype Json =
    | JNull
    | JBool(b: bool)
    | JInt(i: int)
    | JStr(s: string)
    | JArray(items: seq<Json>)

  /** One `PostAttribute` row: a JSON object of attribute name to value. */
  datatype PostAttribute = PostAttribute(data: map<string, Json>)

  /** A listing with its related `attributes` rows.  `createDate` is the
      server-set creation time; `poster` the owning user's id. */
  datatype Post = Post(
    id: nat,
    title: string,
    detail: string,
    poster: nat,
    category: Categories.Code,
    createDate: int,
    isActive: bool,
    attributes: seq<PostAttribute>)

  /** Some attribute record of `post` stores exactly `v` under key `k`. */
  predicate HasValue(post: Post, k: string, v: Json) {
    exists i :: 0 <= i < |post.attributes| && k in post.attributes[i].data &&
      post.attributes[i].data[k] == v
  }

  /** Some attribute record of `post` stores a value under `k` that is at
      least (`atLeast`) or at most (`!atLeast`) `bound` in the jsonb order:
      the `__gte` and `__lte` lookups on a key of the JSON document. */
  predicate HasBound(post: Post, k: string, bound: Json, atLeast: bool) {
    exists i :: 0 <= i < |post.attributes| && k in post.attributes[i].data &&
      Compares(post.attributes[i].data[k], bound, atLeast)
  }

  predicate Compares(stored: Json, bound: Json, atLeast: bool) {
    if atLeast then JsonLe(bound, stored) else JsonLe(stored, bound)
  }

  /** The rank of a JSON value in the jsonb sort order, where values of
      different types compare by type: an empty top-level array < null <
      string < number < boolean < non-empty array. */
  function TypeRank(v: Json): nat {
    match v
    case JArray(items) => if items == [] then 0 else 5
    case JNull => 1
    case JStr(_) => 2
    case JInt(_) => 3
    case JBool(_) => 4
  }

  /** `a <= b` on jsonb values.  Values of one type compare as that type does
      (strings by code point, numbers numerically, `false` before `true`);
      two empty arrays are equal.  Two non-empty arrays are never taken to be
      ordered. */
  predicate JsonLe(a: Json, b: Json) {
    if TypeRank(a) != TypeRank(b) then TypeRank(a) < TypeRank(b)
    else match a
      case JNull => true
      case JStr(x) => StrLe(x, b.s)
      case JInt(x) => x <= b.i
      case JBool(x) => !x || b.b
      case JArray(items) => items == []
  }

  /** On the values a query can carry as a bound, the order is total and
      antisymmetric: every stored scalar is on one side of the bound or the
      other, and on both sides only when it equals the bound. */
  lemma JsonLeTotal(stored: Json, bound: Json)
    requires bound.JInt? || bound.JStr?
    ensures JsonLe(stored, bound) || JsonLe(bound, stored)
    ensures JsonLe(stored, bound) && JsonLe(bound, stored) <==> stored == bound
  {
    if stored.JStr? && bound.JStr? {
      StrLeTotal(stored.s, bound.s);
      if JsonLe(stored, bound) && JsonLe(bound, stored) {
        StrLeAntisymmetric(stored.s, bound.s);
      }
      if stored == bound {
        StrLeRefl(stored.s);
      }
    }
  }

  /** For a post with one attribute record, a lower and an upper bound by the
      same value together hold exactly when the record stores that value:
      `min_k=v&max_k=v` keeps what an exact lookup `k=v` keeps. */
  lemma BothBoundsMeanEqual(post: Post, k: string, bound: Json)
    requires |post.attributes| == 1
    requires bound.JInt? || bound.JStr?
    ensures HasBound(post, k, bound, true) && HasBound(post, k, bound, false) <==> HasValue(post, k, bound)
  {
    var data := post.attributes[0].data;
    if k in data {
      JsonLeTotal(data[k], bound);
    }
  }

  /** A record storing an empty array under `k` sorts below every number and
      string bound: it fails `min_k` and passes `max_k`. */
  lemma EmptyArrayBelowBounds(post: Post, k: string, bound: Json)
    requires post.attributes == [PostAttribute(map[k := JArray([])])]
    requires bound.JInt? || bound.JStr?
    ensures !HasBound(post, k, bound, true)
    ensures HasBound(post, k, bound, false)
  {
    assert post.attributes[0].data[k] == JArray([]);
  }

  /** Dates stored as ISO strings are filtered by their string order: a post
      dated 2020-06-01 passes the bound `min_date=2020-01-01`. */
  lemma LaterIsoDatePasses()
    ensures Compares(JStr("2020-06-01"), JStr("2020-01-01"), true)
    ensures !Compares(JStr("2020-06-01"), JStr("2020-01-01"), false)
  {
    StrLeAfterPrefix("2020-0", "1-01", "6-01");
    assert "2020-0" + "1-01" == "2020-01-01" && "2020-0" + "6-01" == "2020-06-01";
    JsonLeTotal(JStr("2020-06-01"), JStr("2020-01-01"));
  }

  // ---------------------------------------------------------------------------
  // Photo upload path
  // ---------------------------------------------------------------------------

  const UploadPrefix := "post_"

  /** `upload_post_image`: photos of post `id` live under `post_<id>/`. */
  function UploadPath(postId: nat, filename: string): (path: string)
    ensures |path| > |UploadPrefix| && path[..|UploadPrefix|] == UploadPrefix
    ensures |path| > |filename| && path[|path| - |filename|..] == filename
  {
    UploadPrefix + NatToString(postId) + "/" + filename
  }

  /** Recovers the post id and file name from an upload path, when the path
      has the `post_<digits>/<name>` shape with canonical digits. */
  function ParseUploadPath(path: string): Option<(nat, string)> {
    if |path| < |UploadPrefix| || path[..|UploadPrefix|] != UploadPrefix then None
    else
      var rest := path[|UploadPrefix|..];
      if '/' !in rest then None
      else
        var j := FirstSlash(rest);
        match ParseNat(rest[..j])
        case None => None
        case Some(n) =>
          if NatToString(n) == rest[..j] then Some((n, rest[j + 1..])) else None
  }

  function FirstSlash(s: string): (i: nat)
    requires '/' in s
    ensures i < |s| && s[i] == '/' && '/' !in s[..i]
  {
    if s[0] == '/' then 0
    else
      assert s == [s[0]] + s[1..];
      var j := FirstSlash(s[1..]);
      assert s[..j + 1] == [s[0]] + s[1..][..j];
      j + 1
  }

  /** Digits never contain a slash, so the first slash after the digits is
      the separator. */
  lemma FirstSlashAfterDigits(digits: string, filename: string)
    requires AllDigits(digits)
    ensures '/' in digits + "/" + filename
    ensures FirstSlash(digits + "/" + filename) == |digits|
  {
    var s := digits + "/" + filename;
    assert s[|digits|] == '/';
    var i := FirstSlash(s);
    assert s[..|digits|] == digits;
    if i < |digits| {
      assert false;
    }
    if i > |digits| {
      assert false;
    }
  }

  /** The upload path determines the post and the file name: parsing it gives
      both back. */
  lemma ParseUploadPathRoundTrip(postId: nat, filename: string)
    ensures ParseUploadPath(UploadPath(postId, filename)) == Some((postId, filename))
  {
    var digits := NatToString(postId);
    var path := UploadPath(postId, filename);
    assert path[..|UploadPrefix|] == UploadPrefix;
    var rest := path[|UploadPrefix|..];
    assert rest == digits + "/" + filename;
    FirstSlashAfterDigits(digits, filename);
    assert rest[..|digits|] == digits;
    assert rest[|digits| + 1..] == filename;
    ParseNatToString(postId);
  }

  /** Photos of different posts, or with different names, never share a path. */
  lemma UploadPathInjective(id1: nat, f1: string, id2: nat, f2: string)
    requires UploadPath(id1, f1) == UploadPath(id2, f2)
    ensures id1 == id2 && f1 == f2
  {
    ParseUploadPathRoundTrip(id1, f1);
    ParseUploadPathRoundTrip(id2, f2);
  }
}

=== FILE: query.dfy ===
/** The query layer the search endpoint builds on: ORM filter expressions as
    a predicate datatype with an evaluator over one post, the request's
    multi-valued query-parameter dictionary, and the exceptions that can
    abort a search. */
module Query {
  import opened Wrappers
  import opened Categories
  import opened Posts

  // ---------------------------------------------------------------------------
  // Filter predicates
  // ---------------------------------------------------------------------------

  /** A filter over posts.  `All` is the empty `Q()` (and `Post.objects.all()`);
      the JSON lookups `attributes__data__<key>[__gte|__lte]` become
      `EqKey`/`GteKey`/`LteKey`; `category__in` / `exclude(category__pk__in)`
      become `InCats` / `NotInCats`; the full-text lookup is `TextMatch`. */
  datatype Pred =
    | All
    | EqKey(key: string, value: Json)
    | GteKey(key: string, bound: Json)
    | LteKey(key: string, bound: Json)
    | Or(left: Pred, right: Pred)
    | And(left: Pred, right: Pred)
    | InCats(codes: seq<Code>)
    | NotInCats(codes: seq<Code>)
    | TextMatch(text: string)

  /** The database's full-text search over title and detail, left
      uninterpreted: `search(post, text)` says whether `post` matches. */
  type TextSearch = (Post, string) -> bool

  /** Whether `post` satisfies `p`.  A JSON lookup on the reverse relation
      `attributes` holds when some attribute record of the post satisfies it. */
  predicate Eval(p: Pred, post: Post, search: TextSearch) {
    match p
    case All => true
    case EqKey(k, v) => HasValue(post, k, v)
    case GteKey(k, b) => HasBound(post, k, b, true)
    case LteKey(k, b) => HasBound(post, k, b, false)
    case Or(a, b) => Eval(a, post, search) || Eval(b, post, search)
    case And(a, b) => Eval(a, post, search) && Eval(b, post, search)
    case InCats(cs) => post.category in cs
    case NotInCats(cs) => post.category !in cs
    case TextMatch(t) => search(post, t)
  }

  /** Every post `p` keeps, `q` keeps too. */
  ghost predicate Narrows(p: Pred, q: Pred) {
    forall post, search :: Eval(p, post, search) ==> Eval(q, post, search)
  }

  /** `a | b` on `Q` objects: an empty `Q()` on either side is dropped rather
      than treated as "true", so `Q() | Q(x)` is just `Q(x)`. */
  function QOr(a: Pred, b: Pred): (r: Pred)
    ensures a == All ==> r == b
    ensures b == All ==> r == a
    ensures a != All ==> r != All
    ensures a != All && b != All ==>
      forall post, search :: Eval(r, post, search) <==> Eval(a, post, search) || Eval(b, post, search)
  {
    if b == All then a else if a == All then b else Or(a, b)
  }

  /** Evaluating a queryset: the posts of `store` that satisfy `p`, in store
      order. */
  function Filter(store: seq<Post>, p: Pred, search: TextSearch): (r: seq<Post>)
    ensures |r| <= |store|
    ensures forall post :: post in r <==> post in store && Eval(p, post, search)
  {
    if store == [] then []
    else
      var rest := Filter(store[1..], p, search);
      assert forall x :: x in store <==> x == store[0] || x in store[1..];
      if Eval(p, store[0], search) then [store[0]] + rest else rest
  }

  /** One step of `Filter`: the head is kept when it passes. */
  lemma FilterCons(store: seq<Post>, p: Pred, search: TextSearch)
    requires store != []
    ensures Filter(store, p, search) ==
      (if Eval(p, store[0], search) then [store[0]] else []) + Filter(store[1..], p, search)
  {
  }

  /** `qs & Post.objects.filter(f)` is `qs` filtered once more by `f`: the
      result keeps the store's order and holds the posts passing both. */
  lemma {:induction false} FilterAnd(store: seq<Post>, a: Pred, b: Pred, search: TextSearch)
    ensures Filter(store, And(a, b), search) == Filter(Filter(store, a, search), b, search)
    decreases |store|
  {
    if store != [] {
      var head, rest := store[0], store[1..];
      var restA := Filter(rest, a, search);
      var tail := Filter(restA, b, search);
      FilterAnd(rest, a, b, search);
      FilterCons(store, And(a, b), search);
      FilterCons(store, a, search);
      var both := Eval(a, head, search) && Eval(b, head, search);
      assert Eval(And(a, b), head, search) == both;
      assert Filter(store, And(a, b), search) == (if both then [head] else []) + tail;
      if Eval(a, head, search) {
        var fa := [head] + restA;
        assert Filter(store, a, search) == fa;
        FilterCons(fa, b, search);
        assert fa[0] == head && fa[1..] == restA;
      }
    }
  }

  // ---------------------------------------------------------------------------
  // Query-parameter dictionaries
  // ---------------------------------------------------------------------------

  /** One key of a `QueryDict` with every value given for it, in request order. */
  datatype Param = Param(key: string, values: seq<string>)

  /** A request's query parameters, in the order the keys first appear. */
  type QueryDict = seq<Param>

  /** What parsing a query string always produces: each key once, each with at
      least one value. */
  predicate WellFormedQuery(q: QueryDict) {
    && (forall i, j :: 0 <= i < j < |q| ==> q[i].key != q[j].key)
    && (forall i :: 0 <= i < |q| ==> |q[i].values| > 0)
  }

  /** `q.getlist(k)` when `k` is present, `None` otherwise. */
  function GetList(q: QueryDict, k: string): (r: Option<seq<string>>)
    ensures r.None? <==> forall p :: p in q ==> p.key != k
    ensures r.Some? ==> Param(k, r.value) in q
  {
    if q == [] then None
    else if q[0].key == k then Some(q[0].values)
    else GetList(q[1..], k)
  }

  /** With each key present once, the values found are the ones stored under it. */
  lemma GetListUnique(q: QueryDict, k: string, vs: seq<string>)
    requires WellFormedQuery(q) && Param(k, vs) in q
    ensures GetList(q, k) == Some(vs)
  {
    var i :| 0 <= i < |q| && q[i] == Param(k, vs);
    var r := GetList(q, k);
    var j :| 0 <= j < |q| && q[j] == Param(k, r.value);
  }

  /** `q.get(k)`: the LAST value given for `k`. */
  function GetLast(q: QueryDict, k: string): (r: Option<string>)
    requires WellFormedQuery(q)
    ensures r.Some? <==> GetList(q, k).Some?
    ensures r.Some? ==> r.value == GetList(q, k).value[|GetList(q, k).value| - 1]
  {
    match GetList(q, k)
    case None => None
    case Some(vs) =>
      assert Param(k, vs) in q;
      var i :| 0 <= i < |q| && q[i] == Param(k, vs);
      Some(vs[|vs| - 1])
  }

  /** `q.pop(k, None)`: the list stored under `k`, and the dictionary without
      that key. */
  function Pop(q: QueryDict, k: string): (r: (Option<seq<string>>, QueryDict))
    ensures r.0 == GetList(q, k)
    ensures forall p :: p in r.1 <==> p in q && p.key != k
    ensures WellFormedQuery(q) ==> WellFormedQuery(r.1)
  {
    (GetList(q, k), Without(q, k))
  }

  function Without(q: QueryDict, k: string): (r: QueryDict)
    ensures forall p :: p in r <==> p in q && p.key != k
    ensures WellFormedQuery(q) ==> WellFormedQuery(r)
  {
    if q == [] then []
    else
      var rest := Without(q[1..], k);
      assert forall p :: p in q <==> p == q[0] || p in q[1..];
      var r := if q[0].key == k then rest else [q[0]] + rest;
      WithoutKeepsWellFormed(q, k, rest, r);
      r
  }

  lemma WithoutKeepsWellFormed(q: QueryDict, k: string, rest: QueryDict, r: QueryDict)
    requires q != []
    requires forall p :: p in rest <==> p in q[1..] && p.key != k
    requires WellFormedQuery(q[1..]) ==> WellFormedQuery(rest)
    requires r == if q[0].key == k then rest else [q[0]] + rest
    ensures WellFormedQuery(q) ==> WellFormedQuery(r)
  {
    if WellFormedQuery(q) {
      assert WellFormedQuery(q[1..]) by {
        forall i, j | 0 <= i < j < |q[1..]| ensures q[1..][i].key != q[1..][j].key {
          assert q[1..][i] == q[i + 1] && q[1..][j] == q[j + 1];
        }
      }
      if q[0].key != k {
        forall p | p in rest ensures p.key != q[0].key {
          var j :| 0 <= j < |q[1..]| && q[1..][j] == p;
          assert q[j + 1] == p;
        }
        forall i, j | 0 <= i < j < |r| ensures r[i].key != r[j].key {
          if i == 0 {
            assert r[j] in rest;
          } else {
            assert r[i] == rest[i - 1] && r[j] == rest[j - 1];
          }
        }
        forall i | 0 <= i < |r| ensures |r[i].values| > 0 {
          if i > 0 {
            assert r[i] in rest;
          }
        }
      }
    }
  }

  /** Removing one key leaves the values of every other key as they were. */
  lemma GetListWithout(q: QueryDict, k: string, other: string)
    requires WellFormedQuery(q) && other != k
    ensures GetList(Without(q, k), other) == GetList(q, other)
  {
    var r := Without(q, k);
    match GetList(q, other)
    case None =>
    case Some(vs) =>
      GetListUnique(r, other, vs);
  }

  // ---------------------------------------------------------------------------
  // Errors
  // ---------------------------------------------------------------------------

  /** The exceptions a search request can raise. */
  datatype Error =
    | NotFound(code: Code)        // get_object_or_404 on an unknown `cat`: HTTP 404
    | DoesNotExist(code: Code)    // Category.objects.get on an unknown code
    | WidgetNotCallable           // parsers.get fell back to the string 'none' and called it
    | MalformedFilter             // the checkbox/text branch: reduce called without an iterable
    | EmptyValueList              // q.get(param) is None on an empty value list, then int(None)
    | MissingFacet(code: Code)    // KeyError in the facet dictionary
}

=== FILE: resolver.dfy ===
/** The search query resolver of `posts/views.py`: `generate_qs` and the
    per-parameter parsers that turn a request's query parameters into one
    composite filter, using the inherited attribute schema of the requested
    category to interpret each parameter. */
module Resolver {
  import opened Wrappers
  import opened Strings
  import opened Categories
  import opened Posts
  import opened Query

  /** Keys `generate_qs` removes before it looks at attribute parameters. */
  const CatKey := "cat"
  const ExCatsKey := "ex_cats"
  const TextKey := "text"

  predicate Reserved(k: string) {
    k == CatKey || k == ExCatsKey || k == TextKey
  }

  // ---------------------------------------------------------------------------
  // Matching a parameter to an attribute
  // ---------------------------------------------------------------------------

  /** `attribute.name.lower() in param.lower()`. */
  predicate NameMatches(a: CategoryAttribute, param: string) {
    Contains(Lower(param), Lower(a.name))
  }

  /** `attrs[i]` is the first attribute whose name matches `param`. */
  predicate MatchedAt(attrs: seq<CategoryAttribute>, param: string, i: int) {
    0 <= i < |attrs| && NameMatches(attrs[i], param) &&
    forall j :: 0 <= j < i ==> !NameMatches(attrs[j], param)
  }

  /** An attribute with an empty name matches every parameter, since the
      empty string occurs in every string. */
  lemma EmptyNameMatchesAll(a: CategoryAttribute, param: string)
    requires a.name == ""
    ensures NameMatches(a, param)
  {
    EmptyIsSubstring(Lower(param));
  }

  /** The head of the filtered list `[a for a in attrs if a matches param]`. */
  function FirstMatch(attrs: seq<CategoryAttribute>, param: string): (r: Option<CategoryAttribute>)
    ensures r.None? <==> forall i :: 0 <= i < |attrs| ==> !NameMatches(attrs[i], param)
    ensures r.Some? ==> exists i :: MatchedAt(attrs, param, i) && attrs[i] == r.value
  {
    if attrs == [] then None
    else if NameMatches(attrs[0], param) then
      assert MatchedAt(attrs, param, 0);
      Some(attrs[0])
    else
      var r := FirstMatch(attrs[1..], param);
      if r.Some? then
        var i :| MatchedAt(attrs[1..], param, i) && attrs[1..][i] == r.value;
        assert MatchedAt(attrs, param, i + 1);
        r
      else
        assert forall i :: 1 <= i < |attrs| ==> attrs[i] == attrs[1..][i - 1];
        r
  }

  /** There is at most one first match. */
  lemma MatchedAtUnique(attrs: seq<CategoryAttribute>, param: string, i: int, j: int)
    requires MatchedAt(attrs, param, i) && MatchedAt(attrs, param, j)
    ensures i == j
  {
  }

  // ---------------------------------------------------------------------------
  // The per-parameter parsers
  // ---------------------------------------------------------------------------

  /** `parse_select_query_param`: `reduce(lambda x, y: x | Q(<param>=y), values, Q())`.
      The JSON key is the parameter name itself, not the attribute name, taken
      as one literal key (no `__` key paths or lookups). */
  function SelectFilter(param: string, values: seq<string>): (r: Pred)
    ensures r == All <==> values == []
    decreases |values|
  {
    if values == [] then All
    else QOr(SelectFilter(param, values[..|values| - 1]), EqKey(param, JStr(values[|values| - 1])))
  }

  /** The select filter keeps a post exactly when some attribute record stores
      one of the given values under the parameter's name; with no values it
      keeps every post. */
  lemma {:induction false} SelectFilterMeaning(param: string, values: seq<string>, post: Post, search: TextSearch)
    ensures Eval(SelectFilter(param, values), post, search) <==>
      values == [] || exists v :: v in values && HasValue(post, param, JStr(v))
    decreases |values|
  {
    if values != [] {
      var init := values[..|values| - 1];
      var last := values[|values| - 1];
      SelectFilterMeaning(param, init, post, search);
      assert forall v :: v in values <==> v in init || v == last by {
        assert values == init + [last];
      }
    }
  }

  /** `int(value)`, falling back to the original string on `ValueError`. */
  function CoerceInt(s: string): (r: Json)
    ensures r.JInt? || r == JStr(s)
  {
    match ParseInt(s)
    case Some(i) => JInt(i)
    case None => JStr(s)
  }

  /** A value is compared as a number exactly when `int()` accepts it, and the
      decimal form of any integer is compared as that integer. */
  lemma CoerceIntMeaning(s: string, i: int)
    ensures CoerceInt(s).JInt? <==> ParseInt(s).Some?
    ensures CoerceInt(IntToString(i)) == JInt(i)
  {
    ParseIntToString(i);
  }

  /** The number/date branch of `parse_input_query_param`: the last value,
      coerced, bounds the lower-cased attribute name from below when the raw
      parameter name contains `min`, from above otherwise. */
  function RangeFilter(param: string, a: CategoryAttribute, values: seq<string>): (r: Result<Pred, Error>)
    ensures r.Failure? <==> values == []
  {
    if values == [] then Failure(EmptyValueList)
    else
      var bound := CoerceInt(values[|values| - 1]);
      var key := Lower(a.name);
      Success(if Contains(param, "min") then GteKey(key, bound) else LteKey(key, bound))
  }

  predicate IsRangeType(t: Option<InputType>) {
    t == Some(Number) || t == Some(Date)
  }

  predicate IsListType(t: Option<InputType>) {
    t == Some(Checkbox) || t == Some(Text)
  }

  /** `parse_input_query_param`.  The checkbox/text branch calls `reduce`
      with the lambda and no iterable, which raises `TypeError` before
      anything is filtered; it is modelled as that failure. */
  function InputFilter(param: string, a: CategoryAttribute, values: seq<string>): (r: Result<Pred, Error>)
    ensures r.Failure? <==> IsListType(a.inputType) || (IsRangeType(a.inputType) && values == [])
    ensures !IsRangeType(a.inputType) && !IsListType(a.inputType) ==> r == Success(All)
  {
    if IsRangeType(a.inputType) then RangeFilter(param, a, values)
    else if IsListType(a.inputType) then Failure(MalformedFilter)
    else Success(All)
  }

  /** `parse_category_filter_from_query_param`: find the first matching
      attribute and dispatch on its widget.  A `textarea` widget has no parser:
      `parsers.get` returns the string `'none'`, and calling it raises. */
  function ParamFilter(attrs: seq<CategoryAttribute>, param: string, values: seq<string>): (r: Result<Pred, Error>)
    ensures FirstMatch(attrs, param).None? ==> r == Success(All)
    ensures r.Failure? <==>
      FirstMatch(attrs, param).Some? && AttributeRejects(FirstMatch(attrs, param).value, values)
  {
    match FirstMatch(attrs, param)
    case None => Success(All)
    case Some(a) =>
      match a.widget
      case Select => Success(SelectFilter(param, values))
      case Input => InputFilter(param, a, values)
      case Textarea => Failure(WidgetNotCallable)
  }

  // ---------------------------------------------------------------------------
  // What a parameter means, stated over the post
  // ---------------------------------------------------------------------------

  /** What the matched attribute `a` demands of a post. */
  predicate AttributeHolds(a: CategoryAttribute, param: string, values: seq<string>, post: Post) {
    match a.widget
    case Select => values == [] || exists v :: v in values && HasValue(post, param, JStr(v))
    case Input =>
      IsRangeType(a.inputType) && values != [] ==>
        HasBound(post, Lower(a.name), CoerceInt(values[|values| - 1]), Contains(param, "min"))
    case Textarea => false
  }

  /** The matched attribute makes the parameter raise. */
  predicate AttributeRejects(a: CategoryAttribute, values: seq<string>) {
    || a.widget == Textarea
    || (a.widget == Input && IsListType(a.inputType))
    || (a.widget == Input && IsRangeType(a.inputType) && values == [])
  }

  /** A parameter no attribute name matches constrains nothing; otherwise the
      first matching attribute decides. */
  predicate ParamHolds(attrs: seq<CategoryAttribute>, param: string, values: seq<string>, post: Post) {
    (forall i :: 0 <= i < |attrs| ==> !NameMatches(attrs[i], param)) ||
    exists i :: 0 <= i < |attrs| && MatchedAt(attrs, param, i) && AttributeHolds(attrs[i], param, values, post)
  }

  predicate ParamRejects(attrs: seq<CategoryAttribute>, param: string, values: seq<string>) {
    exists i :: 0 <= i < |attrs| && MatchedAt(attrs, param, i) && AttributeRejects(attrs[i], values)
  }

  /** A parameter's filter fails exactly when its first matching attribute is
      a textarea, a checkbox/text input, or a range input given no value. */
  lemma ParamFilterFails(attrs: seq<CategoryAttribute>, param: string, values: seq<string>)
    ensures ParamFilter(attrs, param, values).Failure? <==> ParamRejects(attrs, param, values)
  {
    match FirstMatch(attrs, param)
    case None =>
    case Some(a) =>
      var i :| MatchedAt(attrs, param, i) && attrs[i] == a;
      forall j | MatchedAt(attrs, param, j) ensures j == i {
        MatchedAtUnique(attrs, param, i, j);
      }
  }

  /** A filter that is built keeps exactly the posts the parameter describes. */
  lemma ParamFilterKeeps(attrs: seq<CategoryAttribute>, param: string, values: seq<string>, post: Post, search: TextSearch)
    requires ParamFilter(attrs, param, values).Success?
    ensures Eval(ParamFilter(attrs, param, values).value, post, search) <==> ParamHolds(attrs, param, values, post)
  {
    match FirstMatch(attrs, param)
    case None =>
    case Some(a) =>
      var i :| MatchedAt(attrs, param, i) && attrs[i] == a;
      forall j | MatchedAt(attrs, param, j) ensures j == i {
        MatchedAtUnique(attrs, param, i, j);
      }
      if a.widget == Select {
        SelectFilterMeaning(param, values, post, search);
      }
  }

  /** Both halves together: the parser fails exactly on a rejecting first
      match, and otherwise keeps exactly the posts the parameter describes. */
  lemma ParamFilterMeaning(attrs: seq<CategoryAttribute>, param: string, values: seq<string>, post: Post, search: TextSearch)
    ensures ParamFilter(attrs, param, values).Failure? <==> ParamRejects(attrs, param, values)
    ensures ParamFilter(attrs, param, values).Success? ==>
      (Eval(ParamFilter(attrs, param, values).value, post, search) <==> ParamHolds(attrs, param, values, post))
  {
    ParamFilterFails(attrs, param, values);
    if ParamFilter(attrs, param, values).Success? {
      ParamFilterKeeps(attrs, param, values, post, search);
    }
  }

  // ---------------------------------------------------------------------------
  // generate_qs
  // ---------------------------------------------------------------------------

  /** `for param in query_params: qs = qs & parse_...(param, ...)`, stopping at
      the first parameter whose parser raises. */
  function ApplyParams(attrs: seq<CategoryAttribute>, ps: QueryDict, qs: Pred): (r: Result<Pred, Error>)
    ensures ps == [] ==> r == Success(qs)
    ensures r.Success? ==> Narrows(r.value, qs)
    decreases |ps|
  {
    if ps == [] then Success(qs)
    else match ParamFilter(attrs, ps[0].key, ps[0].values)
      case Failure(e) => Failure(e)
      case Success(f) => ApplyParams(attrs, ps[1..], And(qs, f))
  }

  /** Whether the fold raises does not depend on the queryset it starts
      from. */
  lemma {:induction false} ApplyParamsFailsAlike(attrs: seq<CategoryAttribute>, ps: QueryDict, qs1: Pred, qs2: Pred)
    ensures ApplyParams(attrs, ps, qs1).Failure? <==> ApplyParams(attrs, ps, qs2).Failure?
    decreases |ps|
  {
    if ps != [] {
      match ParamFilter(attrs, ps[0].key, ps[0].values)
      case Failure(_) =>
      case Success(f) =>
        ApplyParamsFailsAlike(attrs, ps[1..], And(qs1, f), And(qs2, f));
    }
  }

  /** The AND-fold fails exactly when some parameter's parser raises. */
  lemma {:induction false} ApplyParamsFails(attrs: seq<CategoryAttribute>, ps: QueryDict, qs: Pred)
    ensures ApplyParams(attrs, ps, qs).Failure? <==> exists p :: p in ps && ParamRejects(attrs, p.key, p.values)
    decreases |ps|
  {
    if ps != [] {
      assert forall p :: p in ps <==> p == ps[0] || p in ps[1..];
      ParamFilterFails(attrs, ps[0].key, ps[0].values);
      match ParamFilter(attrs, ps[0].key, ps[0].values)
      case Failure(e) =>
      case Success(f) =>
        ApplyParamsFails(attrs, ps[1..], And(qs, f));
    }
  }

  /** A successful AND-fold keeps exactly the posts of `qs` that every
      parameter accepts. */
  lemma {:induction false} ApplyParamsKeeps(attrs: seq<CategoryAttribute>, ps: QueryDict, qs: Pred, post: Post, search: TextSearch)
    requires ApplyParams(attrs, ps, qs).Success?
    ensures Eval(ApplyParams(attrs, ps, qs).value, post, search) <==>
      Eval(qs, post, search) && forall p :: p in ps ==> ParamHolds(attrs, p.key, p.values, post)
    decreases |ps|
  {
    if ps != [] {
      assert forall p :: p in ps <==> p == ps[0] || p in ps[1..];
      var f := ParamFilter(attrs, ps[0].key, ps[0].values).value;
      ParamFilterKeeps(attrs, ps[0].key, ps[0].values, post, search);
      ApplyParamsKeeps(attrs, ps[1..], And(qs, f), post, search);
    }
  }

  lemma ApplyParamsMeaning(attrs: seq<CategoryAttribute>, ps: QueryDict, qs: Pred, post: Post, search: TextSearch)
    ensures ApplyParams(attrs, ps, qs).Failure? <==> exists p :: p in ps && ParamRejects(attrs, p.key, p.values)
    ensures ApplyParams(attrs, ps, qs).Success? ==>
      (Eval(ApplyParams(attrs, ps, qs).value, post, search) <==>
        Eval(qs, post, search) && forall p :: p in ps ==> ParamHolds(attrs, p.key, p.values, post))
  {
    ApplyParamsFails(attrs, ps, qs);
    if ApplyParams(attrs, ps, qs).Success? {
      ApplyParamsKeeps(attrs, ps, qs, post, search);
    }
  }

  /** `if text and len(text[0]) > 0`. */
  predicate TextRequested(text: Option<seq<string>>) {
    text.Some? && |text.value| > 0 && |text.value[0]| > 0
  }

  /** The `cat` branch: restrict to the category's subtree and AND in one
      filter per remaining parameter, interpreted against the category's
      inherited attributes. */
  function CategoryFilter(db: Catalogue, catId: Code, ps: QueryDict, qs: Pred): (r: Result<Pred, Error>)
    requires WellFormed(db)
    ensures r.Failure? <==> catId !in db.cats || ApplyParams(AllAttributes(db, catId), ps, All).Failure?
    ensures catId !in db.cats ==> r == Failure(NotFound(catId))
    ensures catId in db.cats && ps == [] ==> r.Success?
  {
    if catId !in db.cats then Failure(NotFound(catId))
    else
      var attrs := AllAttributes(db, catId);
      ApplyParamsFailsAlike(attrs, ps, And(qs, InCats(SubCategories(db, catId, true))), All);
      ApplyParams(attrs, ps, And(qs, InCats(SubCategories(db, catId, true))))
  }

  /** `if text and len(text[0]) > 0`: all `text` values joined by spaces are
      searched for. */
  function TextFilter(text: Option<seq<string>>): (r: Pred)
    ensures r == All <==> !TextRequested(text)
  {
    if TextRequested(text) then And(All, TextMatch(Join(text.value))) else All
  }

  /** `qs.exclude(category__pk__in=ex_cats)` when `ex_cats` was given. */
  function Exclude(qs: Pred, exCats: Option<seq<Code>>): (r: Pred)
    ensures exCats.None? ==> r == qs
    ensures exCats.Some? ==> forall post: Post, search :: post.category in exCats.value ==> !Eval(r, post, search)
  {
    if exCats.Some? then And(qs, NotInCats(exCats.value)) else qs
  }

  /** `generate_qs(query_params)`. */
  function GenerateQs(db: Catalogue, q: QueryDict): (r: Result<Pred, Error>)
    requires WellFormed(db) && WellFormedQuery(q)
    ensures GetList(q, CatKey).None? ==> r.Success?
    ensures r.Success? && GetList(q, ExCatsKey).Some? ==>
      forall post: Post, search :: post.category in GetList(q, ExCatsKey).value ==> !Eval(r.value, post, search)
  {
    var (cat, q1) := Pop(q, CatKey);
    var (exCats, q2) := Pop(q1, ExCatsKey);
    var (text, q3) := Pop(q2, TextKey);
    var qs := TextFilter(text);
    var qs' :- if cat.None? then Success(qs) else CategoryFilter(db, cat.value[0], q3, qs);
    Success(Exclude(qs', exCats))
  }

  // ---------------------------------------------------------------------------
  // What a search means
  // ---------------------------------------------------------------------------

  /** The first `cat` value, when one was given. */
  function RequestedCategory(q: QueryDict): Option<Code>
    requires WellFormedQuery(q)
  {
    match GetList(q, CatKey)
    case None => None
    case Some(vs) =>
      assert Param(CatKey, vs) in q;
      var i :| 0 <= i < |q| && q[i] == Param(CatKey, vs);
      Some(vs[0])
  }

  /** What a successful search keeps, stated directly over the post:
      - the full-text condition, when the first `text` value is non-empty,
        on all `text` values joined by single spaces;
      - when `cat` is given: the post's category has the first `cat` value on
        its parent chain, and every non-reserved parameter holds;
      - when `ex_cats` is given: the post's category is not listed. */
  ghost predicate SearchMatches(db: Catalogue, q: QueryDict, post: Post, search: TextSearch)
    requires WellFormed(db) && WellFormedQuery(q)
  {
    && (TextRequested(GetList(q, TextKey)) ==> search(post, Join(GetList(q, TextKey).value)))
    && (RequestedCategory(q).Some? ==>
         var c := RequestedCategory(q).value;
         && c in db.cats
         && post.category in db.cats && c in Chain(db, post.category)
         && forall p :: p in q && !Reserved(p.key) ==> ParamHolds(AllAttributes(db, c), p.key, p.values, post))
    && (GetList(q, ExCatsKey).Some? ==> post.category !in GetList(q, ExCatsKey).value)
  }

  /** A search fails exactly when `cat` names no category, or some
      non-reserved parameter's first matching attribute makes its parser
      raise; with no `cat`, attribute parameters are never even looked at. */
  ghost predicate SearchFails(db: Catalogue, q: QueryDict)
    requires WellFormed(db) && WellFormedQuery(q)
  {
    RequestedCategory(q).Some? &&
    var c := RequestedCategory(q).value;
    c !in db.cats ||
    (c in db.cats && exists p :: p in q && !Reserved(p.key) && ParamRejects(AllAttributes(db, c), p.key, p.values))
  }

  lemma PopsLeaveUnreserved(q: QueryDict)
    requires WellFormedQuery(q)
    ensures GetList(Pop(q, CatKey).1, ExCatsKey) == GetList(q, ExCatsKey)
    ensures GetList(Pop(Pop(q, CatKey).1, ExCatsKey).1, TextKey) == GetList(q, TextKey)
    ensures forall p :: p in Pop(Pop(Pop(q, CatKey).1, ExCatsKey).1, TextKey).1 <==> p in q && !Reserved(p.key)
  {
    var q1 := Pop(q, CatKey).1;
    GetListWithout(q, CatKey, ExCatsKey);
    GetListWithout(q, CatKey, TextKey);
    GetListWithout(q1, ExCatsKey, TextKey);
  }

  /** The `cat` branch fails exactly on an unknown code or a raising
      parameter. */
  lemma CategoryFilterFails(db: Catalogue, c: Code, ps: QueryDict, qs: Pred)
    requires WellFormed(db)
    ensures CategoryFilter(db, c, ps, qs).Failure? <==>
      c !in db.cats || (c in db.cats && exists p :: p in ps && ParamRejects(AllAttributes(db, c), p.key, p.values))
  {
    if c in db.cats {
      ApplyParamsFails(AllAttributes(db, c), ps, All);
    }
  }

  /** When the `cat` branch succeeds it keeps the posts of the subtree that
      satisfy every parameter. */
  lemma CategoryFilterKeeps(db: Catalogue, c: Code, ps: QueryDict, qs: Pred, post: Post, search: TextSearch)
    requires WellFormed(db) && CategoryFilter(db, c, ps, qs).Success?
    ensures Eval(CategoryFilter(db, c, ps, qs).value, post, search) <==>
      && Eval(qs, post, search)
      && post.category in db.cats && c in Chain(db, post.category)
      && forall p :: p in ps ==> ParamHolds(AllAttributes(db, c), p.key, p.values, post)
  {
    var attrs := AllAttributes(db, c);
    var sub := SubCategories(db, c, true);
    assert CategoryFilter(db, c, ps, qs) == ApplyParams(attrs, ps, And(qs, InCats(sub)));
    RestrictedKeeps(attrs, ps, qs, sub, post, search);
    InSubtree(db, c, post.category);
  }

  /** The AND-fold started from `qs` restricted to the categories `sub`. */
  lemma RestrictedKeeps(attrs: seq<CategoryAttribute>, ps: QueryDict, qs: Pred, sub: seq<Code>, post: Post, search: TextSearch)
    requires ApplyParams(attrs, ps, And(qs, InCats(sub))).Success?
    ensures Eval(ApplyParams(attrs, ps, And(qs, InCats(sub))).value, post, search) <==>
      Eval(qs, post, search) && post.category in sub &&
      forall p :: p in ps ==> ParamHolds(attrs, p.key, p.values, post)
  {
    ApplyParamsKeeps(attrs, ps, And(qs, InCats(sub)), post, search);
  }

  /** Both halves of the `cat` branch together. */
  lemma CategoryFilterMeaning(db: Catalogue, c: Code, ps: QueryDict, qs: Pred, post: Post, search: TextSearch)
    requires WellFormed(db)
    ensures CategoryFilter(db, c, ps, qs).Failure? <==>
      c !in db.cats || (c in db.cats && exists p :: p in ps && ParamRejects(AllAttributes(db, c), p.key, p.values))
    ensures CategoryFilter(db, c, ps, qs).Success? ==>
      (Eval(CategoryFilter(db, c, ps, qs).value, post, search) <==>
        && Eval(qs, post, search)
        && post.category in db.cats && c in Chain(db, post.category)
        && forall p :: p in ps ==> ParamHolds(AllAttributes(db, c), p.key, p.values, post))
  {
    CategoryFilterFails(db, c, ps, qs);
    if CategoryFilter(db, c, ps, qs).Success? {
      CategoryFilterKeeps(db, c, ps, qs, post, search);
    }
  }

  lemma TextFilterMeaning(text: Option<seq<string>>, post: Post, search: TextSearch)
    ensures Eval(TextFilter(text), post, search) <==> (TextRequested(text) ==> search(post, Join(text.value)))
  {
  }

  lemma ExcludeMeaning(qs: Pred, exCats: Option<seq<Code>>, post: Post, search: TextSearch)
    ensures Eval(Exclude(qs, exCats), post, search) <==>
      Eval(qs, post, search) && (exCats.Some? ==> post.category !in exCats.value)
  {
  }

  lemma GenerateQsSteps(db: Catalogue, q: QueryDict)
    requires WellFormed(db) && WellFormedQuery(q)
    ensures var rest := Pop(Pop(Pop(q, CatKey).1, ExCatsKey).1, TextKey).1;
      var qs := TextFilter(GetList(q, TextKey));
      var r := if RequestedCategory(q).None? then Success(qs)
               else CategoryFilter(db, RequestedCategory(q).value, rest, qs);
      GenerateQs(db, q) == if r.Failure? then Failure(r.error) else Success(Exclude(r.value, GetList(q, ExCatsKey)))
  {
    PopsLeaveUnreserved(q);
  }

  lemma GenerateQsSuccess(db: Catalogue, q: QueryDict, post: Post, search: TextSearch)
    requires WellFormed(db) && WellFormedQuery(q)
    requires GenerateQs(db, q).Success?
    ensures Eval(GenerateQs(db, q).value, post, search) <==> SearchMatches(db, q, post, search)
  {
    GenerateQsSteps(db, q);
    PopsLeaveUnreserved(q);
    var rest := Pop(Pop(Pop(q, CatKey).1, ExCatsKey).1, TextKey).1;
    var exCats := GetList(q, ExCatsKey);
    var qs := TextFilter(GetList(q, TextKey));
    TextFilterMeaning(GetList(q, TextKey), post, search);
    if RequestedCategory(q).None? {
      ExcludeMeaning(qs, exCats, post, search);
    } else {
      var c := RequestedCategory(q).value;
      CategoryFilterMeaning(db, c, rest, qs, post, search);
      var r := CategoryFilter(db, c, rest, qs);
      ExcludeMeaning(r.value, exCats, post, search);
      assert c in db.cats;
      var attrs := AllAttributes(db, c);
      assert (forall p :: p in rest ==> ParamHolds(attrs, p.key, p.values, post)) <==>
             (forall p :: p in q && !Reserved(p.key) ==> ParamHolds(attrs, p.key, p.values, post));
    }
  }

  lemma GenerateQsFailure(db: Catalogue, q: QueryDict)
    requires WellFormed(db) && WellFormedQuery(q)
    ensures GenerateQs(db, q).Failure? <==> SearchFails(db, q)
  {
    GenerateQsSteps(db, q);
    PopsLeaveUnreserved(q);
    var rest := Pop(Pop(Pop(q, CatKey).1, ExCatsKey).1, TextKey).1;
    var qs := TextFilter(GetList(q, TextKey));
    if RequestedCategory(q).Some? {
      var c := RequestedCategory(q).value;
      var post :| true;
      CategoryFilterMeaning(db, c, rest, qs, post, (p, t) => true);
    }
  }

  /** The central property of `generate_qs`: it fails exactly in the cases of
      `SearchFails`, and when it succeeds its filter keeps exactly the posts
      described by `SearchMatches`.  In particular every result lies in the
      `cat` subtree, satisfies every attribute parameter, matches the search
      text, and never has a category listed in `ex_cats`. */
  lemma GenerateQsMeaning(db: Catalogue, q: QueryDict, post: Post, search: TextSearch)
    requires WellFormed(db) && WellFormedQuery(q)
    ensures GenerateQs(db, q).Failure? <==> SearchFails(db, q)
    ensures GenerateQs(db, q).Success? ==>
      (Eval(GenerateQs(db, q).value, post, search) <==> SearchMatches(db, q, post, search))
  {
    GenerateQsFailure(db, q);
    if GenerateQs(db, q).Success? {
      GenerateQsSuccess(db, q, post, search);
    }
  }
}

=== FILE: strings.dfy ===
/** The handful of Python string operations the search layer relies on:
    `str.lower()`, the `in` substring test, joining search words with a single
    space, and the decimal conversions `str(n)` and `int(s)`.

    Lower-casing is ASCII-only and `int(s)` accepts an optional sign followed
    by ASCII digits; Python's wider Unicode rules are not modelled. */
module Strings {
  import opened Wrappers

  // ---------------------------------------------------------------------------
  // Case folding and substring search
  // ---------------------------------------------------------------------------

  function LowerChar(ch: char): char {
    if 'A' <= ch <= 'Z' then (ch as int + 32) as char else ch
  }

  predicate IsUpper(ch: char) {
    'A' <= ch <= 'Z'
  }

  /** `s.lower()` restricted to ASCII letters. */
  function Lower(s: string): (r: string)
    ensures |r| == |s|
  {
    seq(|s|, i requires 0 <= i < |s| => LowerChar(s[i]))
  }

  /** Lower-casing leaves no capital letter, turns every capital into the
      small letter at the same place in the alphabet, and keeps every other
      character where it was. */
  lemma LowerMeaning(s: string)
    ensures forall i :: 0 <= i < |s| ==> !IsUpper(Lower(s)[i])
    ensures forall i :: 0 <= i < |s| && !IsUpper(s[i]) ==> Lower(s)[i] == s[i]
    ensures forall i :: 0 <= i < |s| && IsUpper(s[i]) ==>
      'a' <= Lower(s)[i] <= 'z' && Lower(s)[i] as int - 'a' as int == s[i] as int - 'A' as int
  {
  }

  /** Lower-casing twice is lower-casing once. */
  lemma LowerIdempotent(s: string)
    ensures Lower(Lower(s)) == Lower(s)
  {
  }

  /** Python's `needle in hay` for strings: `needle` occurs contiguously in `hay`. */
  predicate Contains(hay: string, needle: string) {
    exists i :: 0 <= i <= |hay| - |needle| && OccursAt(hay, needle, i)
  }

  predicate OccursAt(hay: string, needle: string, i: int)
    requires 0 <= i <= |hay| - |needle|
  {
    hay[i..i + |needle|] == needle
  }

  /** The empty string is a substring of every string, so an attribute with an
      empty name matches every query parameter. */
  lemma EmptyIsSubstring(hay: string)
    ensures Contains(hay, "")
  {
    assert OccursAt(hay, "", 0);
  }

  // ---------------------------------------------------------------------------
  // Ordering strings
  // ---------------------------------------------------------------------------

  /** `a` sorts no later than `b` in lexicographic order of code points: a
      proper prefix sorts first, otherwise the first differing character
      decides. */
  predicate StrLe(a: string, b: string)
    decreases |a|
  {
    a == [] || (b != [] && (a[0] < b[0] || (a[0] == b[0] && StrLe(a[1..], b[1..]))))
  }

  lemma {:induction false} StrLeRefl(a: string)
    ensures StrLe(a, a)
    decreases |a|
  {
    if a != [] {
      StrLeRefl(a[1..]);
    }
  }

  /** Any two strings are ordered one way or the other. */
  lemma {:induction false} StrLeTotal(a: string, b: string)
    ensures StrLe(a, b) || StrLe(b, a)
    decreases |a|
  {
    if a != [] && b != [] && a[0] == b[0] {
      StrLeTotal(a[1..], b[1..]);
    }
  }

  /** Strings ordered both ways are equal. */
  lemma {:induction false} StrLeAntisymmetric(a: string, b: string)
    requires StrLe(a, b) && StrLe(b, a)
    ensures a == b
    decreases |a|
  {
    if a != [] {
      StrLeAntisymmetric(a[1..], b[1..]);
      assert a == [a[0]] + a[1..];
      assert b == [b[0]] + b[1..];
    }
  }

  lemma {:induction false} StrLeTransitive(a: string, b: string, c: string)
    requires StrLe(a, b) && StrLe(b, c)
    ensures StrLe(a, c)
    decreases |a|
  {
    if a != [] && a[0] == b[0] && b[0] == c[0] {
      StrLeTransitive(a[1..], b[1..], c[1..]);
    }
  }

  /** After a common prefix, the first differing character decides. */
  lemma {:induction false} StrLeAfterPrefix(p: string, a: string, b: string)
    requires a != [] && b != [] && a[0] < b[0]
    ensures StrLe(p + a, p + b)
    decreases |p|
  {
    if p != [] {
      StrLeAfterPrefix(p[1..], a, b);
      assert (p + a)[1..] == p[1..] + a;
      assert (p + b)[1..] == p[1..] + b;
    }
  }

  // ---------------------------------------------------------------------------
  // Joining search words
  // ---------------------------------------------------------------------------

  /** `reduce(lambda x, y: '{0} {1}'.format(x, y), ws)`: a left fold that puts
      one space between consecutive words.  `reduce` without an initial value
      needs at least one word. */
  function Join(ws: seq<string>): string
    requires |ws| > 0
    decreases |ws|
  {
    if |ws| == 1 then ws[0] else Join(ws[..|ws| - 1]) + " " + ws[|ws| - 1]
  }

  /** The joined text starts with the first word, ends with the last, and
      adds exactly one character between each pair of neighbours. */
  lemma {:induction false} JoinShape(ws: seq<string>)
    requires |ws| > 0
    ensures |Join(ws)| == TotalLength(ws) + |ws| - 1
    ensures |ws[0]| <= |Join(ws)| && Join(ws)[..|ws[0]|] == ws[0]
    ensures Join(ws)[|Join(ws)| - |ws[|ws| - 1]|..] == ws[|ws| - 1]
    decreases |ws|
  {
    if |ws| > 1 {
      var init := ws[..|ws| - 1];
      JoinShape(init);
      assert init[0] == ws[0];
    }
  }

  /** The summed lengths of the words. */
  function TotalLength(ws: seq<string>): nat
    decreases |ws|
  {
    if ws == [] then 0 else TotalLength(ws[..|ws| - 1]) + |ws[|ws| - 1]|
  }

  /** The left fold agrees with joining from the front. */
  lemma {:induction false} JoinCons(ws: seq<string>)
    requires |ws| > 1
    ensures Join(ws) == ws[0] + " " + Join(ws[1..])
    decreases |ws|
  {
    if |ws| == 2 {
      assert ws[1..] == [ws[1]];
    } else {
      var init := ws[..|ws| - 1];
      JoinCons(init);
      assert init[1..] == ws[1..][..|ws[1..]| - 1];
      assert ws[1..][|ws[1..]| - 1] == ws[|ws| - 1];
    }
  }

  /** Splitting on single spaces, the inverse of `Join`. */
  function Split(s: string): (r: seq<string>)
    ensures |r| > 0
    decreases |s|
  {
    if ' ' !in s then [s]
    else
      var i := FirstSpace(s);
      [s[..i]] + Split(s[i + 1..])
  }

  function FirstSpace(s: string): (i: nat)
    requires ' ' in s
    ensures i < |s| && s[i] == ' ' && ' ' !in s[..i]
  {
    if s[0] == ' ' then 0
    else
      assert s == [s[0]] + s[1..];
      var j := FirstSpace(s[1..]);
      assert s[..j + 1] == [s[0]] + s[1..][..j];
      j + 1
  }

  predicate NoSpaces(ws: seq<string>) {
    forall i :: 0 <= i < |ws| ==> ' ' !in ws[i]
  }

  /** A first word without spaces is split off intact. */
  lemma SplitFirstWord(w: string, rest: string)
    requires ' ' !in w
    ensures Split(w + " " + rest) == [w] + Split(rest)
  {
    var s := w + " " + rest;
    assert s[|w|] == ' ';
    var i := FirstSpace(s);
    assert s[..|w|] == w;
    if i < |w| {
      assert false;
    }
    if i > |w| {
      assert false;
    }
    assert s[..i] == w;
    assert s[i + 1..] == rest;
  }

  /** Joining words that contain no space loses nothing: splitting the joined
      search text gives the words back. */
  lemma {:induction false} SplitJoin(ws: seq<string>)
    requires |ws| > 0 && NoSpaces(ws)
    ensures Split(Join(ws)) == ws
    decreases |ws|
  {
    if |ws| == 1 {
      assert ' ' !in ws[0];
    } else {
      var rest := ws[1..];
      JoinCons(ws);
      assert ' ' !in ws[0];
      SplitFirstWord(ws[0], Join(rest));
      assert NoSpaces(rest) by {
        forall k | 0 <= k < |rest| ensures ' ' !in rest[k] {
          assert rest[k] == ws[k + 1];
        }
      }
      SplitJoin(rest);
      assert ws == [ws[0]] + rest;
    }
  }

  // ---------------------------------------------------------------------------
  // Decimal conversions: str(n) and int(s)
  // ---------------------------------------------------------------------------

  predicate IsDigit(ch: char) {
    '0' <= ch <= '9'
  }

  predicate AllDigits(s: string) {
    forall i :: 0 <= i < |s| ==> IsDigit(s[i])
  }

  function DigitChar(d: nat): (ch: char)
    requires d < 10
    ensures IsDigit(ch)
  {
    ('0' as int + d) as char
  }

  /** `str(n)` for a non-negative integer: its shortest decimal form. */
  function NatToString(n: nat): (r: string)
    ensures |r| > 0 && AllDigits(r)
    decreases n
  {
    if n < 10 then [DigitChar(n)] else NatToString(n / 10) + [DigitChar(n % 10)]
  }

  /** The value of a string of decimal digits, most significant first. */
  function DigitsValue(s: string): nat
    requires AllDigits(s)
  {
    if s == [] then 0
    else DigitsValue(s[..|s| - 1]) * 10 + (s[|s| - 1] as int - '0' as int)
  }

  /** A non-empty run of ASCII digits, read as a natural number. */
  function ParseNat(s: string): (r: Option<nat>)
    ensures r.Some? <==> |s| > 0 && AllDigits(s)
  {
    if |s| > 0 && AllDigits(s) then Some(DigitsValue(s)) else None
  }

  /** `int(s)`: an optional `+` or `-` followed by ASCII digits; anything else
      is the `ValueError` case, here `None`. */
  function ParseInt(s: string): (r: Option<int>)
    ensures r.Some? <==>
      (|s| > 0 && AllDigits(s)) ||
      (|s| > 1 && (s[0] == '-' || s[0] == '+') && AllDigits(s[1..]))
  {
    if |s| > 0 && s[0] == '-' then
      match ParseNat(s[1..])
      case Some(n) => Some(-(n as int))
      case None => None
    else if |s| > 0 && s[0] == '+' then
      match ParseNat(s[1..])
      case Some(n) => Some(n)
      case None => None
    else
      match ParseNat(s)
      case Some(n) => Some(n)
      case None => None
  }

  /** `str(i)` for any integer. */
  function IntToString(i: int): string {
    if i < 0 then "-" + NatToString(-i) else NatToString(i)
  }

  /** Reading back the decimal form of `n` gives `n`. */
  lemma {:induction false} ParseNatToString(n: nat)
    ensures ParseNat(NatToString(n)) == Some(n)
    decreases n
  {
    if n >= 10 {
      ParseNatToString(n / 10);
      var s := NatToString(n);
      assert s[..|s| - 1] == NatToString(n / 10);
      assert s[|s| - 1] == DigitChar(n % 10);
      assert DigitsValue(s) == (n / 10) * 10 + n % 10;
    }
  }

  /** `int(str(i)) == i` for every integer. */
  lemma ParseIntToString(i: int)
    ensures ParseInt(IntToString(i)) == Some(i)
  {
    if i < 0 {
      ParseNatToString(-i);
      assert IntToString(i)[1..] == NatToString(-i);
    } else {
      ParseNatToString(i);
    }
  }
}

=== FILE: wrappers.dfy ===
/** Failure-compatible wrappers used throughout the model: an optional value
    (Python's `None` or a present value) and a result that is either a value
    or the error the source would raise. */
module Wrappers {

  datatype Option<+T> = None | Some(value: T)

  datatype Result<+R, +E> = Success(value: R) | Failure(error: E) {

    predicate IsFailure() {
      Failure?
    }

    function PropagateFailure<U>(): Result<U, E>
      requires Failure?
    {
      Failure(error)
    }

    function Extract(): R
      requires Success?
    {
      value
    }
  }

  /** True when no element of `s` occurs twice. */
  predicate NoDup<T(==)>(s: seq<T>) {
    forall i, j :: 0 <= i < j < |s| ==> s[i] != s[j]
  }

  /** Concatenating two duplicate-free, disjoint sequences gives a duplicate-free one. */
  lemma NoDupConcat<T>(a: seq<T>, b: seq<T>)
    requires NoDup(a) && NoDup(b)
    requires forall x :: x in a ==> x !in b
    ensures NoDup(a + b)
  {
    forall i, j | 0 <= i < j < |a + b|
      ensures (a + b)[i] != (a + b)[j]
    {
      if j < |a| {
      } else if i >= |a| {
        assert (a + b)[i] == b[i - |a|] && (a + b)[j] == b[j - |a|];
      } else {
        assert (a + b)[i] in a && (a + b)[j] in b;
      }
    }
  }
}
